=== FILE: README.md ===
# ng-gen-flow graph core in Dafny

A model of the core of ng-gen-flow, an Angular editor for flow diagrams. A flow is a list of typed nodes
(START, TASK, DECISION, SCRIPT, API, END) joined by directed connections. A
connection may carry a port tag ("true"/"false" on the outputs of a decision).
The model covers six parts, all written as immutable datatypes and pure functions:

- `FlowModel` (`flow_model.dfy`): the flow document, its closed node-kind and HTTP-method enums.
- `Validation` (`validation.dfy`): `validateFlow`, a pure function from a flow to an ordered list of
  advisory diagnostics (START rule, END rule, then "not reachable" / "has no output" per node).
- `Snapshots` (`history.dfy`): the undo/redo history service, a list of snapshots with a cursor.
- `Execution` (`execution.dfy`): the execution engine. It looks up the first START node,
  dispatches on node kind, chooses the next edge by port, and appends to a log. Script and
  condition evaluation and the HTTP call are oracles. The `while` loop runs on fuel, because
  the engine does no cycle detection.
- `FlowEditor` (`editor.dfy`): the editor's graph edits. Each edit computes a new flow, pushes
  it onto the history and re-validates. Undo/redo, the sample flow, start-up and save are here too.
- `Persistence` (`persistence.dfy`): the stored list of flows, with upsert by id, delete by id
  and find-first.
- `Basics` (`basics.dfy`): `Option`/`Result`, JavaScript truthiness of optional strings, and the
  order-preserving `filter` / `find` / `findIndex` used throughout.

Every edit keeps the editor `Consistent`: the flow on screen is the snapshot under the history
cursor, and the diagnostics shown are the flow's own. Undo brings back the flow and the
diagnostics from before an edit. The engine's log holds one error exactly when a node failed,
one warning exactly when the walk stopped at a missing connection, and one success message
exactly when it finished at an END node. Saving then looking up returns the saved flow, and
deleting removes exactly the flows with that id.

## Model

| member | source | states |
|---|---|---|
| FlowModel.NodeTypeIsClosed | src/app/core/models/flow.model.ts:1-8 | exactly the six names START, TASK, DECISION, SCRIPT, API, END denote node kinds; each kind reads back from its own name and from no other |
| FlowModel.MethodIsClosed | src/app/core/models/flow.model.ts:25 | an API method is exactly one of GET, POST, PUT, DELETE, and each reads back from its own name only |
| Validation.NodeDiagnostics | src/app/core/services/validation.service.ts:35-44 | a node draws at most two diagnostics, all warnings carrying its id; when it draws both, "is not reachable" comes before "has no output" |
| Validation.PerNodeDiagnostics | src/app/core/services/validation.service.ts:34-45 | the per-node rules yield at most two diagnostics per node, all warnings, each carrying the id of a node of the flow |
| Validation.Validate | src/app/core/services/validation.service.ts:16-47 | at most 2 + 2·(node count) diagnostics; the only error is "must have a Start node" when there is no START and "can only have one Start node" when there are several (none otherwise); the only flow-level warning is the missing-END one, present exactly when there is no END; every node id named is a node of the flow; flow-level diagnostics precede the per-node ones, and when the START rule and the END rule both fire the START error comes first and the missing-END warning second |
| Validation.FlowDiagnosticsFilters | src/app/core/services/validation.service.ts:19-31 | the START and END rules give at most two node-less diagnostics: at most one error decided by the START count, and a warning exactly when there is no END |
| Validation.PerNodeDiagnosticsConcat | src/app/core/services/validation.service.ts:34-45 | per-node diagnostics follow node order: those of earlier nodes come before those of later ones |
| Validation.PerNodeMember | src/app/core/services/validation.service.ts:34-45 | a per-node diagnostic is in the list exactly when some node of the flow produced it |
| Validation.UnreachableMessageInjective | src/app/core/services/validation.service.ts:39 | the "is not reachable" message determines the label it quotes |
| Validation.NoOutputMessageInjective | src/app/core/services/validation.service.ts:43 | the "has no output" message determines the label it quotes |
| Validation.MessagesDiffer | src/app/core/services/validation.service.ts:38-44 | a "not reachable" message never equals a "has no output" message, whatever the labels |
| Validation.UnreachableWarningIff | src/app/core/services/validation.service.ts:35-40 | the "not reachable" warning for an id and label appears exactly when a node with that id and label is not START and no connection targets it |
| Validation.NoOutputWarningIff | src/app/core/services/validation.service.ts:36-44 | the "has no output" warning for an id and label appears exactly when a node with that id and label is not END and no connection leaves it |
| Validation.ValidateEmptyIff | src/app/core/services/validation.service.ts:19-45 | a flow has no diagnostics exactly when it has one START, at least one END, and every node has the input and output its kind calls for |
| Validation.KindsAndRulesIgnorePositions | src/app/core/services/validation.service.ts:20-45 | node lists differing only in positions have the same START and END counts and the same per-node diagnostics |
| Validation.ValidateIgnoresPositions | src/app/core/services/validation.service.ts:16-47 | flows that differ only in node positions get the same diagnostics |
| Snapshots.CurrentState | src/app/core/services/history.service.ts:13-16 | there is a current state exactly when the cursor is inside the list, and it is one of the snapshots |
| Snapshots.Init | src/app/core/services/history.service.ts:18-21 | one snapshot, the given state current, nothing to undo or redo |
| Snapshots.Push | src/app/core/services/history.service.ts:23-36 | the pushed state becomes current; pushing the current state changes nothing (the redo branch survives); otherwise the snapshots up to the cursor are kept, the state follows them, the cursor points at it and nothing is left to redo |
| Snapshots.Undo | src/app/core/services/history.service.ts:38-44 | at the first snapshot nothing changes and nothing is returned; otherwise the cursor steps back and the snapshot now current is returned; the snapshot list never changes |
| Snapshots.Redo | src/app/core/services/history.service.ts:46-52 | at the last snapshot nothing changes and nothing is returned; otherwise the cursor steps forward and the snapshot now current is returned; the snapshot list never changes |
| Snapshots.StaysInitialized | src/app/core/services/history.service.ts:18-52 | once initialized, push, undo and redo keep the cursor inside the list |
| Snapshots.UndoThenRedo | src/app/core/services/history.service.ts:38-52 | a successful undo followed by redo restores the history and returns the state that was current |
| Snapshots.RedoThenUndo | src/app/core/services/history.service.ts:38-52 | a successful redo followed by undo restores the history and returns the state that was current |
| Snapshots.PushThenUndo | src/app/core/services/history.service.ts:23-52 | undo right after pushing a new state returns the state that was current before the push, and redo then returns the pushed state |
| Snapshots.PushBeforeInit | src/app/core/services/history.service.ts:23-35 | pushing onto the never-initialized history (cursor -1) gives one snapshot with cursor 0, as `init` does |
| Snapshots.UndoTwiceThenPush | src/app/core/services/history.service.ts:27-44 | after two undos, pushing a new state drops the two undone snapshots and leaves nothing to redo |
| Persistence.GetFlows | src/app/core/services/persistence.service.ts:12-15 | with nothing stored there are no flows; otherwise the stored list |
| Persistence.GetFlowById | src/app/core/services/persistence.service.ts:17-19 | the first stored flow with that id (no earlier entry has it) when one exists, nothing exactly when none has it |
| Persistence.SaveFlow | src/app/core/services/persistence.service.ts:21-32 | the flow is stored afterwards; with its id already present the list keeps its length, otherwise the flow is appended last; every entry with another id stays at its index, and the only entry that may change is the first one with the flow's id |
| Persistence.DeleteFlow | src/app/core/services/persistence.service.ts:34-37 | exactly the stored flows with another id remain, and the list never grows |
| Persistence.DeleteKeepsOrder | src/app/core/services/persistence.service.ts:34-37 | deleting distributes over concatenation of stored lists and keeps a single flow exactly when its id differs, so the survivors keep their order and multiplicity |
| Persistence.GetAfterSave | src/app/core/services/persistence.service.ts:17-31 | after saving a flow, looking up its id returns that flow |
| Persistence.SaveKeepsOthers | src/app/core/services/persistence.service.ts:17-31 | saving a flow does not change what a lookup of any other id returns |
| Persistence.SaveIdempotent | src/app/core/services/persistence.service.ts:21-32 | saving the same flow twice stores what saving it once does |
| Persistence.GetAfterDelete | src/app/core/services/persistence.service.ts:17-37 | after deleting an id, looking it up finds nothing |
| Persistence.DeleteKeepsOthers | src/app/core/services/persistence.service.ts:17-37 | deleting one id does not change what a lookup of any other id returns |
| Persistence.DeleteIdempotent | src/app/core/services/persistence.service.ts:34-37 | deleting an id twice is deleting it once |
| Persistence.DeleteAfterSave | src/app/core/services/persistence.service.ts:21-37 | deleting a just-saved flow leaves the same list, in the same order, as deleting its id before the save |
| Execution.ApiRequest | src/app/core/services/execution.service.ts:99-105 | the request uses the configured URL and method, sends no body for GET and the configured body otherwise, and has a JSON content type unless the node's own headers override it, with every configured header kept |
| Execution.NextNodeId | src/app/core/services/execution.service.ts:121-126 | nothing exactly when no connection leaves the node (through the port, when one is given); otherwise the target of the first such connection |
| Execution.ExecuteNode | src/app/core/services/execution.service.ts:76-119 | START and TASK advance along the first output; END yields no next node; every other kind that succeeds advances along the first output, except DECISION: it fails exactly when evaluating its truthy condition throws (an absent or empty condition counts as `false`), and otherwise logs "Condition evaluated to: " with the value's rendering, keeps the evaluator's context, and follows the "true" port when the value is truthy and the "false" port otherwise; API keeps every other context entry; only SCRIPT, DECISION and API can fail; no entry it logs is an error, warning or success-of-flow |
| Execution.Step | src/app/core/services/execution.service.ts:43-68 | each turn logs "Executing TYPE", then the node's own entries, then its closing entry: a null next id ends it with the success entry at an END node and the "Flow stopped" warning elsewhere; a failure ends it with the entry "Error: " + message under the node; a next id naming no node ends it after the node's own entries; otherwise it moves to the first node of the flow with that id, carrying the context the node left |
| Execution.StepIsProper | src/app/core/services/execution.service.ts:43-68 | every turn of the engine has that shape |
| Execution.Loop | src/app/core/services/execution.service.ts:43-69 | with no fuel the loop does nothing; otherwise it leaves an active node set |
| Execution.LoopShape | src/app/core/services/execution.service.ts:43-69 | a loop of well-shaped turns opens with entering its first node and, when it finished, stopped or failed, closes with the entry that reports it |
| Execution.Traverse | src/app/core/services/execution.service.ts:40-69 | the walk from a node logs entering it first, sets the active node, and ends with the entry reporting how it stopped |
| Execution.ExecuteFlow | src/app/core/services/execution.service.ts:27-74 | a call during a run changes nothing; with no START node it logs exactly the one error and nothing else; otherwise it logs "Starting execution..." first, the run is still going exactly when the walk from the first START node ran out of fuel, and a run that ended clears the active node and logs "Execution ended" last; logs are only ever appended |
| Execution.TraverseIsLoop | src/app/core/services/execution.service.ts:43-69 | the engine's walk is the generic loop over its own turn function |
| Execution.TraverseContinues | src/app/core/services/execution.service.ts:43-60 | when a turn moves on, the walk is that turn's entries followed by the walk from the successor node, with the context the node left and the node as the active one, on one unit less of fuel |
| Execution.HaltingTurn | src/app/core/services/execution.service.ts:43-67 | when a turn ends the walk, the walk is exactly that turn's entries, with the node left active |
| Execution.MovesOn | src/app/core/services/execution.service.ts:44-59 | a node whose run names a non-empty id of a node of the flow hands over to the first node with that id, carrying the context it left, after its "Executing" entry and its own entries |
| Execution.TurnCounts | src/app/core/services/execution.service.ts:45-67 | one turn holds one error exactly when it failed, one warning exactly when it stopped, one success-of-flow entry exactly when it finished |
| Execution.LoopLogCounts | src/app/core/services/execution.service.ts:43-69 | a whole loop holds one error exactly when a node failed, one warning exactly when it stopped at a missing connection, one success-of-flow entry exactly when it finished, and none of them otherwise |
| Execution.WalkLogCounts | src/app/core/services/execution.service.ts:43-69 | the engine's walk has those log counts |
| Execution.FuelMonotone | src/app/core/services/execution.service.ts:43-69 | a walk that ended within some fuel ends identically with any more fuel: fuel only bounds the loop |
| Execution.EndNodeFinishes | src/app/core/services/execution.service.ts:50-56 | entering an END node logs the entry and the success message and finishes there |
| Execution.SelfLoopNeverEnds | src/app/core/services/execution.service.ts:43-60 | a TASK whose first output leads back to itself is entered again and again until the fuel is spent: there is no cycle detection |
| Execution.LoopSelf | src/app/core/services/execution.service.ts:43-59 | a loop that always re-enters the same node spends all its fuel, one entry per turn |
| Execution.DecisionWithoutCondition | src/app/core/services/execution.service.ts:89-96 | a DECISION with an absent or empty condition logs "Condition evaluated to: false" and follows the "false" port |
| Execution.DecisionWithoutPortsStops | src/app/core/services/execution.service.ts:89-96 | a DECISION none of whose outputs carries a "true" or "false" port stops the walk after its evaluation, with the one warning and no node entered after it |
| Execution.ApiStoresResponse | src/app/core/services/execution.service.ts:98-111 | an API node with a configuration logs "Calling API: METHOD url", fails exactly when the request fails (after that one entry), and otherwise stores the response under its own id in `data`, logs "API Response received" and advances; one without a configuration only advances |
| Execution.ScriptRunsItsScript | src/app/core/services/execution.service.ts:82-87 | a SCRIPT node runs its script only when it is non-empty, fails exactly when the script throws, otherwise advances with the context the script left, and logs nothing itself |
| Execution.RunEntersFirstStart | src/app/core/services/execution.service.ts:31-45 | a run enters the first START node in node order right after "Starting execution..." |
| Execution.RunLogs | src/app/core/services/execution.service.ts:27-74 | a run logs at most one error; a run whose walk from the first START node stopped within the fuel is no longer running, has no active node, and appends exactly the start entry, that walk and the end entry, with one error exactly when a node failed |
| FlowEditor.RemoveNode | src/app/features/editor/editor.component.ts:259-264 | the nodes left are exactly those with another id, the connections left exactly those touching neither end, and the node ids lose exactly that id |
| FlowEditor.RemoveNodeKeepsOrder | src/app/features/editor/editor.component.ts:262-263 | deletion distributes over concatenation of the node list and of the connection list and keeps a single node or connection exactly when it does not carry or touch the id, so survivors keep their order and multiplicity |
| FlowEditor.ReplaceNode | src/app/features/editor/editor.component.ts:250-254 | the nodes with the updated node's id become it and no other node changes; count, order and connections are unchanged |
| FlowEditor.MoveNodes | src/app/features/editor/editor.component.ts:214-221 | only positions change; a node listed in the event moves to the first position listed for it, an unlisted node stays as it was |
| FlowEditor.NewNode | src/app/features/editor/editor.component.ts:193-205 | the new node has the given id and kind, the label "TYPE Node", the drop position or else the event rectangle, a non-empty script only for SCRIPT, the condition "data.value > 0" only for DECISION, and a GET configuration with an empty URL only for API |
| FlowEditor.AddNode | src/app/features/editor/editor.component.ts:207-210 | exactly one node is appended, last, and nothing else changes |
| FlowEditor.AddConnection | src/app/features/editor/editor.component.ts:225-237 | with an empty input id nothing changes; otherwise exactly one port-less connection from output to input is appended, last |
| FlowEditor.PushHistory | src/app/features/editor/editor.component.ts:144-147 | afterwards the flow is current in the history and the diagnostics are its own; re-pushing the current flow changes nothing; pushing a changed flow leaves nothing to redo and, once initialized, something to undo |
| FlowEditor.DeleteNode | src/app/features/editor/editor.component.ts:259-267 | the node removal, whose result is pushed onto the history as it was and validated, leaving the editor consistent |
| FlowEditor.UpdateNode | src/app/features/editor/editor.component.ts:250-257 | the node replacement, whose result is pushed onto the history as it was and validated, leaving the editor consistent |
| FlowEditor.NodesMoved | src/app/features/editor/editor.component.ts:214-223 | the move, whose result is pushed onto the history as it was and validated; moving never changes the diagnostics |
| FlowEditor.NodeCreated | src/app/features/editor/editor.component.ts:192-212 | the new node appended, the result pushed onto the history as it was and validated, leaving the editor consistent |
| FlowEditor.ConnectionCreated | src/app/features/editor/editor.component.ts:225-239 | with an empty input id the editor, history included, is unchanged; otherwise the connection is appended and the result pushed onto the history as it was and validated |
| FlowEditor.OnUndo | src/app/features/editor/editor.component.ts:128-134 | with nothing to undo the editor is unchanged; otherwise the flow becomes the previous snapshot and is re-validated; consistency is kept |
| FlowEditor.OnRedo | src/app/features/editor/editor.component.ts:136-142 | with nothing to redo the editor is unchanged; otherwise the flow becomes the next snapshot and is re-validated; consistency is kept |
| FlowEditor.LoadSampleFlow | src/app/features/editor/editor.component.ts:86-126 | the sample START→SCRIPT→END flow becomes the flow and the only snapshot, and it has no diagnostics, whatever ids were drawn |
| FlowEditor.SampleRunFinishes | src/app/core/services/execution.service.ts:27-74 | running the sample flow, with distinct non-empty ids and a script that does not throw, logs "Starting execution...", enters START, SCRIPT and END in turn, logs "Flow finished successfully" and "Execution ended", and leaves the engine idle with no active node |
| FlowEditor.SampleWalk | src/app/core/services/execution.service.ts:43-69 | the walk of the sample from its START node finishes after entering START, SCRIPT and END, with the success entry last |
| FlowEditor.SampleStartTurn | src/app/core/services/execution.service.ts:44-59 | the sample's START turn logs only its entry and hands over to the SCRIPT node with the empty context |
| FlowEditor.SampleScriptTurn | src/app/core/services/execution.service.ts:44-59 | the sample's SCRIPT turn logs only its entry and hands over to the END node with the context the script left |
| FlowEditor.SampleLinks | src/app/features/editor/editor.component.ts:91-121 | in the sample with distinct ids START's first output leads to the SCRIPT node and the SCRIPT node's to END, and each id names its own node first |
| FlowEditor.ThreeTurns | src/app/core/services/execution.service.ts:43-69 | a loop whose first two turns hand over and whose third halts logs exactly those turns' entries and stops as the third turn does |
| FlowEditor.SampleIsClean | src/app/features/editor/editor.component.ts:91-121 | the sample flow validates without any diagnostic |
| FlowEditor.OnInit | src/app/features/editor/editor.component.ts:63-71 | start-up shows the first stored flow, or the diagnostic-free sample when none is stored, with a fresh history and consistent diagnostics |
| FlowEditor.OnSave | src/app/features/editor/editor.component.ts:153-156 | afterwards the store returns the current flow under its id and every other id as before |
| FlowEditor.EditThenUndo | src/app/features/editor/editor.component.ts:128-147 | after an edit that changes the flow, undo restores the previous flow and diagnostics and redo restores the edited flow |
| FlowEditor.NoChangeNoSnapshot | src/app/features/editor/editor.component.ts:144-147 | a delete or move that leaves the flow as it was leaves the editor, history included, unchanged |
| FlowEditor.RemoveAbsentNode | src/app/features/editor/editor.component.ts:259-264 | deleting an id no node or connection uses changes nothing |
| FlowEditor.RemoveNodeOrder | src/app/features/editor/editor.component.ts:259-264 | deleting twice is deleting once, and two deletions give the same flow in either order |
| FlowEditor.EditsKeepWired | src/app/features/editor/editor.component.ts:250-264 | deleting a node leaves no connection dangling in a flow whose connections all join nodes; an in-place update keeps the id set and that property |
| FlowEditor.UpdateNodeIdempotent | src/app/features/editor/editor.component.ts:250-254 | updating with the same node twice is updating once; updating an absent id changes nothing |
| FlowEditor.MoveNothing | src/app/features/editor/editor.component.ts:214-221 | an empty move event changes nothing |
| FlowEditor.NewNodeIsFlagged | src/app/features/editor/editor.component.ts:192-212 | a node created with a fresh id is reported as not reachable exactly when it is not START, and as having no output exactly when it is not END |
| FlowEditor.AddedNodeIsOnly | src/app/features/editor/editor.component.ts:207-210 | a node appended under a new id is the only node of the flow with that id |
| FlowEditor.FreshNodeIsFlagged | src/app/core/services/validation.service.ts:34-45 | a node whose id is unique and unconnected draws the "not reachable" warning exactly when it is not START and the "has no output" warning exactly when it is not END |
| FlowEditor.ConnectionClearsWarnings | src/app/features/editor/editor.component.ts:225-238 | a new connection from a to b clears every "not reachable" warning for b and every "has no output" warning for a |
| FlowEditor.ReloadAfterSave | src/app/features/editor/editor.component.ts:63-67 | saving into an empty store, or one that begins with a flow of the same id, and starting the editor again shows the saved flow |

## Left out

- Script and condition evaluation (`new Function`) is dynamic JavaScript. It is the `runScript` and
  `evalCondition` oracles, which return a context (and, for conditions, the value's truthiness and
  its `${}` rendering) or fail with a message.
- `fetch` and `response.json()` are network I/O. They are the `fetch` oracle, which returns a JSON
  value or fails. The HTTP status is not inspected by the source either.
- The 800 ms `setTimeout` between nodes is pacing only, and is left out.
- The async/Promise structure, the RxJS log subject and Angular signals are left out. The model is
  sequential, the log is an appended sequence, and the signals are plain fields.
- Log timestamps (`new Date()`) are left out.
- JSON numbers in API responses are reals; the rounding of IEEE doubles is not modelled, since the
  engine only stores the response.
- `crypto.randomUUID` is left out. Generated ids are parameters (`SampleIds`, `newId`,
  `connectionId`).
- Node positions are JavaScript numbers. They are reals here. Validation and execution never look at
  them; moves set them, and the history's equality test compares them. Reals have no NaN and no
  negative zero, so the stringify comparison's rendering of NaN as `null` and of -0 as `0` is not
  modelled.
- The JSON deep copies in the history service are the identity on immutable values, and its
  `JSON.stringify` comparison is structural equality. The stringify comparison depends on the key
  order of every object it renders (the flow, each node, its `data` and `position`, each
  connection, the API configuration and its headers), so two equal flows built with keys in a
  different order count as different there; it is also blind to `undefined` fields. The model is
  neither.
- `localStorage` serialisation is left out: the stored value is the flow list itself, so a
  corrupt stored string that `JSON.parse` would reject is not modelled.
- `exportFlow` (DOM download) and `importFlow` (FileReader) are browser I/O, and are left out.
- properties.component.ts holds only event emitters, and is not part of this model.
- The editor's UI state is left out: sidebar and log toggles, icons, CSS classes, `selectedNode`,
  `onSelectionChanged`, `showValidationErrors`, `clearLogs`, `onExport`, `ngOnDestroy` and the log
  subscription.
- `runSimulation` clears the editor's displayed log copy and calls `executeFlow`. The run itself is
  `Execution.ExecuteFlow` (`FlowEditor.SampleRunFinishes` follows one on the sample flow); the
  displayed copy is not modelled.
- Execution.Traverse: the loop is bounded by fuel. A run that has not stopped after `fuel` turns is
  reported as still running (`isRunning` true, no "Execution ended"). That is how the unbounded
  source loop looks at any instant.
- The engine's `catch` branch for a missing current node ("Error in execution") cannot be reached,
  because the current node is always defined inside the loop. It is not modelled.
- `onNodeCreated` casts the palette payload with `event.data as NodeType`. The model takes a
  `NodeType`, so payloads outside the six kinds are not modelled, and neither is the `default`
  branch of `executeNode`.
- An undefined `fInputId` is modelled as the empty string, since both are falsy.
- Execution.ExecuteFlow: every failure carries a message. A script or condition that throws `null`
  or `undefined` makes the `catch` branch itself throw on `error.message`; the run then escapes the
  loop without the cleanup, leaving `isRunning` set (later calls do nothing), the active node set
  and "Execution ended" unlogged. That path is not modelled, and `Execution.RunLogs` and
  `Execution.LoopLogCounts` do not cover it.
- Execution.ExecuteNode: the context's `data` is always a map. A script that replaces `context.data`
  with `null`, `undefined` or another non-object makes a later API node's store throw (or, for a
  primitive, go astray); that failure is not modelled.

=== FILE: basics.dfy ===
/** Small generic building blocks shared by the flow modules: optional values,
    failing results, and the order-preserving list operations the TypeScript
    code uses through `Array.prototype.filter`, `find` and `findIndex`. */
module Basics {

  /** A value that may be absent (`undefined` / `null` in the source). */
  datatype Option<+T> = None | Some(value: T) {

    /** The carried value, or `default` when absent. */
    function GetOr(default: T): T {
      if Some? then value else default
    }
  }

  /** The outcome of a step that may throw: a value, or the thrown error's message. */
  datatype Result<+T> = Ok(value: T) | Fail(message: string)

  /** JavaScript truthiness of an optional string: present and not empty. */
  predicate Truthy(s: Option<string>) {
    s.Some? && s.value != ""
  }

  /** The elements of `s` that satisfy `p`, in their original order. */
  function Filter<T(!new)>(s: seq<T>, p: T -> bool): (r: seq<T>)
    ensures |r| <= |s|
    ensures forall x :: x in r <==> x in s && p(x)
  {
    if |s| == 0 then []
    else
      assert forall x :: x in s <==> x == s[0] || x in s[1..];
      (if p(s[0]) then [s[0]] else []) + Filter(s[1..], p)
  }

  /** Filtering distributes over concatenation, so it keeps the relative order
      of the elements it retains. */
  lemma {:induction false} FilterConcat<T(!new)>(a: seq<T>, b: seq<T>, p: T -> bool)
    ensures Filter(a + b, p) == Filter(a, p) + Filter(b, p)
  {
    if |a| == 0 {
      assert a + b == b;
    } else {
      assert (a + b)[0] == a[0];
      assert (a + b)[1..] == a[1..] + b;
      FilterConcat(a[1..], b, p);
    }
  }

  /** Filtering a sequence whose elements all pass returns it unchanged. */
  lemma {:induction false} FilterKeepsAll<T(!new)>(s: seq<T>, p: T -> bool)
    requires forall x :: x in s ==> p(x)
    ensures Filter(s, p) == s
  {
    if |s| > 0 {
      assert s[0] in s;
      assert forall x :: x in s[1..] ==> x in s;
      FilterKeepsAll(s[1..], p);
    }
  }

  /** Filtering a sequence none of whose elements pass yields nothing. */
  lemma FilterDropsAll<T(!new)>(s: seq<T>, p: T -> bool)
    requires forall x :: x in s ==> !p(x)
    ensures Filter(s, p) == []
  {
  }

  /** Overwriting one element that the filter drops with another that it
      drops leaves the filtered sequence unchanged. */
  lemma FilterIgnoresUpdate<T(!new)>(s: seq<T>, i: nat, x: T, p: T -> bool)
    requires i < |s|
    requires !p(s[i]) && !p(x)
    ensures Filter(s[i := x], p) == Filter(s, p)
  {
    var t := s[i := x];
    assert s == s[..i] + [s[i]] + s[i + 1..];
    assert t == s[..i] + [x] + s[i + 1..];
    FilterConcat(s[..i] + [s[i]], s[i + 1..], p);
    FilterConcat(s[..i], [s[i]], p);
    FilterConcat(s[..i] + [x], s[i + 1..], p);
    FilterConcat(s[..i], [x], p);
    assert Filter([s[i]], p) == [] && Filter([x], p) == [] by {
      FilterDropsAll([s[i]], p);
      FilterDropsAll([x], p);
    }
  }

  /** The index of the first element satisfying `p`, as `findIndex` computes it
      (with `None` for its `-1`). */
  function FindIndex<T(!new)>(s: seq<T>, p: T -> bool): (r: Option<nat>)
    ensures r.Some? ==> r.value < |s| && p(s[r.value])
    ensures r.Some? ==> forall j :: 0 <= j < r.value ==> !p(s[j])
    ensures r.None? <==> forall j :: 0 <= j < |s| ==> !p(s[j])
  {
    if |s| == 0 then None
    else if p(s[0]) then Some(0)
    else
      match FindIndex(s[1..], p)
      case None => None
      case Some(i) => Some(i + 1)
  }

  /** The first element satisfying `p`, as `find` computes it. */
  function Find<T(!new)>(s: seq<T>, p: T -> bool): (r: Option<T>)
    ensures r.Some? ==> r.value in s && p(r.value)
    ensures r.None? <==> forall x :: x in s ==> !p(x)
    ensures r.Some? ==> exists i :: 0 <= i < |s| && s[i] == r.value && forall j :: 0 <= j < i ==> !p(s[j])
  {
    match FindIndex(s, p)
    case None => None
    case Some(i) => Some(s[i])
  }

  /** Searching a sequence with one element in front finds that element when
      it passes and otherwise searches the rest. */
  lemma FindCons<T(!new)>(x: T, s: seq<T>, p: T -> bool)
    ensures Find([x] + s, p) == if p(x) then Some(x) else Find(s, p)
  {
    assert ([x] + s)[1..] == s;
  }

  /** Two sequences on which `p` agrees index by index, the longer one failing
      `p` beyond the shorter, have the same first passing index. */
  lemma FindIndexAgree<T(!new)>(s: seq<T>, t: seq<T>, p: T -> bool)
    requires |s| <= |t|
    requires forall j :: 0 <= j < |s| ==> p(s[j]) == p(t[j])
    requires forall j :: |s| <= j < |t| ==> !p(t[j])
    ensures FindIndex(s, p) == FindIndex(t, p)
  {
    var a, b := FindIndex(s, p), FindIndex(t, p);
    if a.Some? {
      assert p(t[a.value]);
    }
  }

  /** Overwriting an element that fails `p` with another that fails it does
      not change what is found. */
  lemma FindIgnoresUpdate<T(!new)>(s: seq<T>, i: nat, x: T, p: T -> bool)
    requires i < |s|
    requires !p(s[i]) && !p(x)
    ensures Find(s[i := x], p) == Find(s, p)
  {
    FindIndexAgree(s, s[i := x], p);
  }

  /** Appending an element that fails `p` does not change what is found. */
  lemma FindIgnoresAppend<T(!new)>(s: seq<T>, x: T, p: T -> bool)
    requires !p(x)
    ensures Find(s + [x], p) == Find(s, p)
  {
    FindIndexAgree(s, s + [x], p);
  }

  /** Filtering out only elements that `p` rejects does not change what a
      search for `p` finds. */
  lemma {:induction false} FindThroughFilter<T(!new)>(s: seq<T>, keep: T -> bool, p: T -> bool)
    requires forall x :: p(x) ==> keep(x)
    ensures Find(Filter(s, keep), p) == Find(s, p)
  {
    if |s| > 0 {
      var rest := Filter(s[1..], keep);
      assert s == [s[0]] + s[1..];
      assert Filter(s, keep) == (if keep(s[0]) then [s[0]] else []) + rest;
      FindCons(s[0], s[1..], p);
      FindThroughFilter(s[1..], keep, p);
      if keep(s[0]) {
        FindCons(s[0], rest, p);
      } else {
        assert Filter(s, keep) == rest;
      }
    }
  }

  /** Two filters may be applied in either order. */
  lemma {:induction false} FilterCommutes<T(!new)>(s: seq<T>, p: T -> bool, q: T -> bool)
    ensures Filter(Filter(s, p), q) == Filter(Filter(s, q), p)
  {
    if |s| > 0 {
      var x, rest := s[0], s[1..];
      FilterCommutes(rest, p, q);
      FilterConcat(if p(x) then [x] else [], Filter(rest, p), q);
      FilterConcat(if q(x) then [x] else [], Filter(rest, q), p);
    }
  }
}

=== FILE: editor.dfy ===
/** The editor's graph edits (src/app/features/editor/editor.component.ts):
    each edit computes a new flow, records it in the snapshot history and
    re-validates. Generated ids (`crypto.randomUUID`) are parameters; the
    signals are plain fields of one immutable editor state. */
module FlowEditor {
  import opened Basics
  import opened FlowModel
  import opened Validation
  import opened Snapshots
  import opened Persistence
  import Execution

  /** The editor state the edits touch: the current flow, its history, and the
      diagnostics on display. */
  datatype Editor = Editor(flow: Flow, history: History<Flow>, diagnostics: seq<Diagnostic>)

  /** What every edit re-establishes: the flow is the snapshot under the
      history cursor and the diagnostics are the flow's own. */
  predicate Consistent(ed: Editor) {
    && Initialized(ed.history)
    && CurrentState(ed.history) == Some(ed.flow)
    && ed.diagnostics == Validate(ed.flow)
  }

  /** Every connection starts and ends at a node of the flow. */
  predicate Wired(f: Flow) {
    forall c :: c in f.connections ==> c.source in NodeIds(f.nodes) && c.target in NodeIds(f.nodes)
  }

  // ---------------------------------------------------------------------
  // Flow transforms, one per edit

  function NodeNotNamed(id: string): FlowNode -> bool {
    (n: FlowNode) => n.id != id
  }

  function NotTouching(id: string): FlowConnection -> bool {
    (c: FlowConnection) => c.source != id && c.target != id
  }

  /** The flow `deleteNode` computes: every node with that id and every
      connection touching that id removed, the rest kept in order. */
  function RemoveNode(f: Flow, id: string): (r: Flow)
    ensures r.id == f.id && r.name == f.name && r.description == f.description
    ensures forall n :: n in r.nodes <==> n in f.nodes && n.id != id
    ensures forall c :: c in r.connections <==> c in f.connections && c.source != id && c.target != id
    ensures NodeIds(r.nodes) == NodeIds(f.nodes) - {id}
  {
    var r := f.(nodes := Filter(f.nodes, NodeNotNamed(id)),
                connections := Filter(f.connections, NotTouching(id)));
    assert NodeIds(r.nodes) == NodeIds(f.nodes) - {id} by {
      forall x | x in NodeIds(f.nodes) - {id}
        ensures x in NodeIds(r.nodes)
      {
        var n :| n in f.nodes && n.id == x;
        assert n in r.nodes;
      }
    }
    r
  }

  /** The flow `updateNode` computes: each node with the given node's id
      replaced by it; count, order and connections unchanged. */
  function ReplaceNode(f: Flow, node: FlowNode): (r: Flow)
    ensures r.id == f.id && r.name == f.name && r.description == f.description
    ensures r.connections == f.connections
    ensures |r.nodes| == |f.nodes|
    ensures forall i :: 0 <= i < |f.nodes| && f.nodes[i].id == node.id ==> r.nodes[i] == node
    ensures forall i :: 0 <= i < |f.nodes| && f.nodes[i].id != node.id ==> r.nodes[i] == f.nodes[i]
  {
    f.(nodes := seq(|f.nodes|, i requires 0 <= i < |f.nodes| =>
                      if f.nodes[i].id == node.id then node else f.nodes[i]))
  }

  /** One entry of a move event: a node id and where that node now sits. */
  datatype NodeMove = NodeMove(id: string, position: Position)

  function MoveOf(id: string): NodeMove -> bool {
    (m: NodeMove) => m.id == id
  }

  /** A node after a move event: at the position of the first entry for its
      id, or where it was. */
  function MovedNode(n: FlowNode, moves: seq<NodeMove>): FlowNode {
    match Find(moves, MoveOf(n.id))
    case Some(m) => n.(position := m.position)
    case None => n
  }

  /** The flow `onNodesMoved` computes: only the positions of the listed
      nodes change, each to the first listed position for it. */
  function MoveNodes(f: Flow, moves: seq<NodeMove>): (r: Flow)
    ensures r.id == f.id && r.name == f.name && r.description == f.description
    ensures r.connections == f.connections
    ensures SameButPositions(r.nodes, f.nodes)
    ensures forall i :: 0 <= i < |f.nodes| && (forall m :: m in moves ==> m.id != f.nodes[i].id) ==>
              r.nodes[i] == f.nodes[i]
    ensures forall i, k :: 0 <= i < |f.nodes| && FindIndex(moves, MoveOf(f.nodes[i].id)) == Some(k) ==>
              r.nodes[i].position == moves[k].position
  {
    f.(nodes := seq(|f.nodes|, i requires 0 <= i < |f.nodes| => MovedNode(f.nodes[i], moves)))
  }

  /** The starter script a new SCRIPT node gets. */
  const DefaultScript: string := "// Write code here\nconsole.log(\"Hello Flow!\");"

  /** The starter condition a new DECISION node gets. */
  const DefaultCondition: string := "data.value > 0"

  /** The node `onNodeCreated` builds for a palette item of kind `kind`,
      placed at the drop position or, lacking one, at the event rectangle. */
  function NewNode(kind: NodeType, id: string, drop: Option<Position>, rect: Position): (n: FlowNode)
    ensures n.id == id && n.kind == kind
    ensures n.position == if drop.Some? then drop.value else rect
    ensures n.data.caption == TypeName(kind) + " Node"
    ensures n.data.description.None?
    ensures n.data.script.Some? && n.data.condition.Some?
    ensures Truthy(n.data.script) <==> kind == Script
    ensures kind == Script ==> n.data.script == Some(DefaultScript)
    ensures Truthy(n.data.condition) <==> kind == Decision
    ensures kind == Decision ==> n.data.condition == Some(DefaultCondition)
    ensures n.data.apiConfig.Some? <==> kind == Api
    ensures kind == Api ==> n.data.apiConfig == Some(ApiConfig("", Get, None, None))
  {
    FlowNode(id, kind, drop.GetOr(rect), NodeData(
      TypeName(kind) + " Node",
      None,
      Some(if kind == Script then DefaultScript else ""),
      Some(if kind == Decision then DefaultCondition else ""),
      if kind == Api then Some(ApiConfig("", Get, None, None)) else None))
  }

  /** The flow `onNodeCreated` computes: the new node appended last. */
  function AddNode(f: Flow, n: FlowNode): (r: Flow)
    ensures r.id == f.id && r.name == f.name && r.description == f.description
    ensures r.connections == f.connections
    ensures |r.nodes| == |f.nodes| + 1 && r.nodes[..|f.nodes|] == f.nodes && r.nodes[|f.nodes|] == n
  {
    f.(nodes := f.nodes + [n])
  }

  /** The flow `onConnectionCreated` computes: one port-less connection
      appended last, unless the input id is empty (falsy), when nothing changes. */
  function AddConnection(f: Flow, connectionId: string, outputId: string, inputId: string): (r: Flow)
    ensures r.id == f.id && r.name == f.name && r.description == f.description
    ensures r.nodes == f.nodes
    ensures inputId == "" ==> r == f
    ensures inputId != "" ==>
              && |r.connections| == |f.connections| + 1
              && r.connections[..|f.connections|] == f.connections
              && r.connections[|f.connections|] == FlowConnection(connectionId, outputId, inputId, None)
  {
    if inputId == "" then f
    else f.(connections := f.connections + [FlowConnection(connectionId, outputId, inputId, None)])
  }

  // ---------------------------------------------------------------------
  // Editor operations

  /** `pushHistory` (with `validate`): record the current flow and re-derive
      its diagnostics. Re-committing the flow already current changes nothing. */
  function PushHistory(ed: Editor): (r: Editor)
    requires Valid(ed.history)
    ensures Consistent(r) && r.flow == ed.flow
    ensures Consistent(ed) ==> r == ed
    ensures CurrentState(ed.history) != Some(ed.flow) ==>
              && !CanRedo(r.history)
              && (Initialized(ed.history) ==> CanUndo(r.history))
  {
    Editor(ed.flow, Push(ed.history, ed.flow), Validate(ed.flow))
  }

  /** `deleteNode`. */
  function DeleteNode(ed: Editor, id: string): (r: Editor)
    requires Valid(ed.history)
    ensures Consistent(r) && r.flow == RemoveNode(ed.flow, id)
    ensures r.history == Push(ed.history, r.flow)
  {
    PushHistory(ed.(flow := RemoveNode(ed.flow, id)))
  }

  /** `updateNode`. */
  function UpdateNode(ed: Editor, node: FlowNode): (r: Editor)
    requires Valid(ed.history)
    ensures Consistent(r) && r.flow == ReplaceNode(ed.flow, node)
    ensures r.history == Push(ed.history, r.flow)
  {
    PushHistory(ed.(flow := ReplaceNode(ed.flow, node)))
  }

  /** `onNodesMoved`: moving never changes the diagnostics. */
  function NodesMoved(ed: Editor, moves: seq<NodeMove>): (r: Editor)
    requires Valid(ed.history)
    ensures Consistent(r) && r.flow == MoveNodes(ed.flow, moves)
    ensures r.history == Push(ed.history, r.flow)
    ensures Consistent(ed) ==> r.diagnostics == ed.diagnostics
  {
    ValidateIgnoresPositions(MoveNodes(ed.flow, moves), ed.flow);
    PushHistory(ed.(flow := MoveNodes(ed.flow, moves)))
  }

  /** `onNodeCreated`, given the fresh id the source draws at random. */
  function NodeCreated(ed: Editor, kind: NodeType, newId: string, drop: Option<Position>, rect: Position): (r: Editor)
    requires Valid(ed.history)
    ensures Consistent(r) && r.flow == AddNode(ed.flow, NewNode(kind, newId, drop, rect))
    ensures r.history == Push(ed.history, r.flow)
  {
    PushHistory(ed.(flow := AddNode(ed.flow, NewNode(kind, newId, drop, rect))))
  }

  /** `onConnectionCreated`, given the fresh connection id: with an empty
      input id it returns before touching the flow or the history. */
  function ConnectionCreated(ed: Editor, connectionId: string, outputId: string, inputId: string): (r: Editor)
    requires Valid(ed.history)
    ensures inputId == "" ==> r == ed
    ensures inputId != "" ==> Consistent(r) && r.flow == AddConnection(ed.flow, connectionId, outputId, inputId)
    ensures inputId != "" ==> r.history == Push(ed.history, r.flow)
  {
    if inputId == "" then ed
    else PushHistory(ed.(flow := AddConnection(ed.flow, connectionId, outputId, inputId)))
  }

  /** `undo`: the flow and diagnostics change only when the history hands back
      a state. */
  function OnUndo(ed: Editor): (r: Editor)
    requires Valid(ed.history)
    ensures Valid(r.history) && r.history.snapshots == ed.history.snapshots
    ensures Consistent(ed) ==> Consistent(r)
    ensures !CanUndo(ed.history) ==> r == ed
    ensures CanUndo(ed.history) ==>
              && r.history.cursor == ed.history.cursor - 1
              && r.flow == ed.history.snapshots[r.history.cursor]
              && r.diagnostics == Validate(r.flow)
  {
    var moved := Undo(ed.history);
    match moved.state
    case Some(s) => Editor(s, moved.history, Validate(s))
    case None => ed.(history := moved.history)
  }

  /** `redo`: the flow and diagnostics change only when the history hands back
      a state. */
  function OnRedo(ed: Editor): (r: Editor)
    requires Valid(ed.history)
    ensures Valid(r.history) && r.history.snapshots == ed.history.snapshots
    ensures Consistent(ed) ==> Consistent(r)
    ensures !CanRedo(ed.history) ==> r == ed
    ensures CanRedo(ed.history) ==>
              && r.history.cursor == ed.history.cursor + 1
              && r.flow == ed.history.snapshots[r.history.cursor]
              && r.diagnostics == Validate(r.flow)
  {
    var moved := Redo(ed.history);
    match moved.state
    case Some(s) => Editor(s, moved.history, Validate(s))
    case None => ed.(history := moved.history)
  }

  /** The generated ids of the sample flow: its three nodes and two connections. */
  datatype SampleIds = SampleIds(start: string, task: string, end: string, first: string, second: string)

  const SampleScript: string := "console.log(\"Hello from Script!\");\ncontext.data.greeted = true;"

  /** The flow `loadSampleFlow` builds: START "Start" -> SCRIPT "Say Hello" -> END "End". */
  function SampleFlow(ids: SampleIds): Flow {
    Flow("sample", "Greeting Flow", None,
      [ FlowNode(ids.start, Start, Position(100.0, 100.0), NodeData("Start", None, None, None, None)),
        FlowNode(ids.task, Script, Position(400.0, 100.0), NodeData("Say Hello", None, Some(SampleScript), None, None)),
        FlowNode(ids.end, End, Position(700.0, 100.0), NodeData("End", None, None, None, None)) ],
      [ FlowConnection(ids.first, ids.start, ids.task, None),
        FlowConnection(ids.second, ids.task, ids.end, None) ])
  }

  /** `loadSampleFlow`: the sample becomes the flow and the whole history, and
      it is free of diagnostics whatever ids were drawn. */
  function LoadSampleFlow(ids: SampleIds): (r: Editor)
    ensures Consistent(r) && r.flow == SampleFlow(ids)
    ensures r.diagnostics == []
    ensures !CanUndo(r.history) && !CanRedo(r.history)
  {
    var f := SampleFlow(ids);
    SampleIsClean(ids);
    Editor(f, Init(f), Validate(f))
  }

  /** The sample flow has one START, one END, and every node the input and
      output its kind calls for. */
  lemma SampleIsClean(ids: SampleIds)
    ensures Validate(SampleFlow(ids)) == []
  {
    var f := SampleFlow(ids);
    SampleCounts(ids);
    assert forall n :: n in f.nodes ==> !Unreachable(f.connections, n) && !DeadEnd(f.connections, n) by {
      assert f.connections[0] in f.connections && f.connections[1] in f.connections;
    }
    ValidateEmptyIff(f);
  }

  /** The sample has one START node and one END node. */
  lemma SampleCounts(ids: SampleIds)
    ensures StartCount(SampleFlow(ids).nodes) == 1 && EndCount(SampleFlow(ids).nodes) == 1
  {
    var nodes := SampleFlow(ids).nodes;
    var s, t, e := nodes[0], nodes[1], nodes[2];
    assert nodes == [s] + [t] + [e];
    FilterConcat([s] + [t], [e], OfType(Start));
    FilterConcat([s], [t], OfType(Start));
    FilterConcat([s] + [t], [e], OfType(End));
    FilterConcat([s], [t], OfType(End));
  }

  /** `runSimulation` on the sample flow, with distinct non-empty node ids (as
      random UUIDs are) and a script that runs: the run enters START, SCRIPT
      and END in turn, finishes at END and ends. */
  lemma SampleRunFinishes(ids: SampleIds, o: Execution.Oracles, fuel: nat)
    requires DistinctIds(ids)
    requires o.runScript(SampleScript, Execution.EmptyContext).Ok?
    requires fuel >= 3
    ensures var f := SampleFlow(ids);
            Execution.ExecuteFlow(Execution.Engine(false, None, []), f, o, fuel) ==
            Execution.Engine(false, None,
              [ Execution.StartingLog,
                Execution.EnterLog(f.nodes[0]),
                Execution.EnterLog(f.nodes[1]),
                Execution.EnterLog(f.nodes[2]),
                Execution.NodeLog(f.nodes[2], Execution.FinishedMessage, Execution.Success),
                Execution.EndedLog ])
  {
    var f := SampleFlow(ids);
    assert Find(f.nodes, OfType(Start)) == Some(f.nodes[0]);
    var w := SampleWalk(ids, o, fuel);
    Execution.RunLogs(Execution.Engine(false, None, []), f, o, fuel);
    Framed(w.logs, Execution.StartingLog, Execution.EndedLog);
  }

  /** Framing a four-entry list between two entries gives a six-entry list. */
  lemma Framed<T>(m: seq<T>, x: T, y: T)
    requires |m| == 4
    ensures [] + [x] + m + [y] == [x, m[0], m[1], m[2], m[3], y]
  {
  }

  /** The walk of the sample from its START node. */
  lemma SampleWalk(ids: SampleIds, o: Execution.Oracles, fuel: nat) returns (w: Execution.Walk)
    requires DistinctIds(ids)
    requires o.runScript(SampleScript, Execution.EmptyContext).Ok?
    requires fuel >= 3
    ensures var f := SampleFlow(ids);
            && w == Execution.Traverse(f, o, f.nodes[0], Execution.EmptyContext, None, fuel)
            && w.stop == Execution.Finished
            && w.logs == [ Execution.EnterLog(f.nodes[0]), Execution.EnterLog(f.nodes[1]),
                           Execution.EnterLog(f.nodes[2]),
                           Execution.NodeLog(f.nodes[2], Execution.FinishedMessage, Execution.Success) ]
  {
    var f := SampleFlow(ids);
    var s, t, e := f.nodes[0], f.nodes[1], f.nodes[2];
    var ctx := Execution.EmptyContext;
    var after := o.runScript(SampleScript, ctx).value;
    var step := Execution.StepOf(f, o);
    SampleStartTurn(ids, o);
    SampleScriptTurn(ids, o);
    assert step(s, ctx) == Execution.Continue([Execution.EnterLog(s)], t, ctx);
    assert step(t, ctx) == Execution.Continue([Execution.EnterLog(t)], e, after);
    assert step(e, after) ==
           Execution.Halt([Execution.EnterLog(e), Execution.NodeLog(e, Execution.FinishedMessage, Execution.Success)],
                          Execution.Finished);
    ThreeTurns(step, s, t, e, ctx, after, fuel);
    Execution.TraverseIsLoop(f, o, s, ctx, None, fuel);
    w := Execution.Traverse(f, o, s, ctx, None, fuel);
  }

  /** A loop whose first two turns hand over, each logging one entry, and
      whose third halts after two entries, logs those four entries. */
  lemma ThreeTurns(step: (FlowNode, Execution.Context) -> Execution.Turn, s: FlowNode, t: FlowNode, e: FlowNode,
                   c0: Execution.Context, c1: Execution.Context, fuel: nat)
    requires fuel >= 3
    requires step(s, c0).Continue? && step(s, c0).successor == t && step(s, c0).context == c0
    requires step(t, c0).Continue? && step(t, c0).successor == e && step(t, c0).context == c1
    requires step(e, c1).Halt? && |step(s, c0).logs| == 1 && |step(t, c0).logs| == 1 && |step(e, c1).logs| == 2
    ensures var w := Execution.Loop(step, s, c0, None, fuel);
            && w.stop == step(e, c1).stop && w.active == Some(e.id)
            && w.logs == [step(s, c0).logs[0], step(t, c0).logs[0], step(e, c1).logs[0], step(e, c1).logs[1]]
  {
    var a, b, c := step(s, c0).logs, step(t, c0).logs, step(e, c1).logs;
    assert Execution.Loop(step, e, c1, Some(t.id), fuel - 2) == Execution.Walk(c, Some(e.id), step(e, c1).stop);
    assert a + (b + c) == [a[0], b[0], c[0], c[1]];
  }

  /** The sample's START turn hands over to the SCRIPT node. */
  lemma SampleStartTurn(ids: SampleIds, o: Execution.Oracles)
    requires DistinctIds(ids)
    ensures var f := SampleFlow(ids);
            Execution.Step(f, o, f.nodes[0], Execution.EmptyContext) ==
            Execution.Continue([Execution.EnterLog(f.nodes[0])], f.nodes[1], Execution.EmptyContext)
  {
    var f := SampleFlow(ids);
    var ctx := Execution.EmptyContext;
    SampleLinks(ids);
    assert Execution.ExecuteNode(f.nodes[0], f, ctx, o) == Execution.NodeOutcome([], ctx, Ok(Some(ids.task)));
    Execution.MovesOn(f, o, f.nodes[0], ctx, f.nodes[1]);
  }

  /** The sample's SCRIPT turn runs the script and hands over to the END node. */
  lemma SampleScriptTurn(ids: SampleIds, o: Execution.Oracles)
    requires DistinctIds(ids)
    requires o.runScript(SampleScript, Execution.EmptyContext).Ok?
    ensures var f := SampleFlow(ids);
            Execution.Step(f, o, f.nodes[1], Execution.EmptyContext) ==
            Execution.Continue([Execution.EnterLog(f.nodes[1])], f.nodes[2],
                               o.runScript(SampleScript, Execution.EmptyContext).value)
  {
    var f := SampleFlow(ids);
    var ctx := Execution.EmptyContext;
    SampleLinks(ids);
    Execution.ScriptRunsItsScript(f.nodes[1], f, ctx, o);
    assert Execution.ExecuteNode(f.nodes[1], f, ctx, o) ==
           Execution.NodeOutcome([], o.runScript(SampleScript, ctx).value, Ok(Some(ids.end)));
    Execution.MovesOn(f, o, f.nodes[1], ctx, f.nodes[2]);
  }

  /** The three node ids of the sample differ and none is empty. */
  predicate DistinctIds(ids: SampleIds) {
    && ids.start != ids.task && ids.task != ids.end && ids.start != ids.end
    && ids.start != "" && ids.task != "" && ids.end != ""
  }

  /** In the sample with distinct node ids, START leads to the SCRIPT node and
      the SCRIPT node to END, and each id names its own node first. */
  lemma SampleLinks(ids: SampleIds)
    requires DistinctIds(ids)
    ensures var f := SampleFlow(ids);
            && Execution.NextNodeId(f, ids.start, None) == Some(ids.task)
            && Execution.NextNodeId(f, ids.task, None) == Some(ids.end)
            && Find(f.nodes, WithId(ids.task)) == Some(f.nodes[1])
            && Find(f.nodes, WithId(ids.end)) == Some(f.nodes[2])
  {
    var f := SampleFlow(ids);
    var cs, ns := f.connections, f.nodes;
    assert FindIndex(cs, Execution.LeavesVia(ids.start, None)) == Some(0);
    assert FindIndex(cs[1..], Execution.LeavesVia(ids.task, None)) == Some(0);
    assert FindIndex(cs, Execution.LeavesVia(ids.task, None)) == Some(1);
    assert FindIndex(ns[1..], WithId(ids.task)) == Some(0);
    assert FindIndex(ns, WithId(ids.task)) == Some(1);
    assert FindIndex(ns[2..], WithId(ids.end)) == Some(0);
    assert FindIndex(ns[1..][1..], WithId(ids.end)) == Some(0) by { assert ns[1..][1..] == ns[2..]; }
    assert FindIndex(ns[1..], WithId(ids.end)) == Some(1);
    assert FindIndex(ns, WithId(ids.end)) == Some(2);
  }

  /** `ngOnInit`: the first stored flow when there is one (history started
      from it, diagnostics derived), otherwise the sample flow. */
  function OnInit(store: Store, ids: SampleIds): (r: Editor)
    ensures Consistent(r)
    ensures !CanUndo(r.history) && !CanRedo(r.history)
    ensures |GetFlows(store)| > 0 ==> r.flow == GetFlows(store)[0]
    ensures |GetFlows(store)| == 0 ==> r.flow == SampleFlow(ids) && r.diagnostics == []
  {
    var saved := GetFlows(store);
    if |saved| > 0 then Editor(saved[0], Init(saved[0]), Validate(saved[0]))
    else LoadSampleFlow(ids)
  }

  /** `onSave`: the store afterwards hands back the current flow under its id. */
  function OnSave(ed: Editor, store: Store): (r: Store)
    ensures GetFlowById(r, ed.flow.id) == Some(ed.flow)
    ensures forall id :: id != ed.flow.id ==> GetFlowById(r, id) == GetFlowById(store, id)
  {
    GetAfterSave(store, ed.flow);
    forall id | id != ed.flow.id
      ensures GetFlowById(SaveFlow(store, ed.flow), id) == GetFlowById(store, id)
    {
      SaveKeepsOthers(store, ed.flow, id);
    }
    SaveFlow(store, ed.flow)
  }

  // ---------------------------------------------------------------------
  // Properties of the edits

  /** Every edit that changes the flow can be undone, which brings back the
      flow and diagnostics from before it, and redone, which brings back the
      edited flow. */
  lemma EditThenUndo(ed: Editor, f: Flow)
    requires Consistent(ed) && f != ed.flow
    ensures var edited := PushHistory(ed.(flow := f));
            var undone := OnUndo(edited);
            && CanUndo(edited.history)
            && undone.flow == ed.flow && undone.diagnostics == ed.diagnostics
            && Consistent(undone) && CanRedo(undone.history)
            && OnRedo(undone).flow == f
  {
    PushThenUndo(ed.history, f);
  }

  /** An edit that leaves the flow as it was records nothing: undo and redo
      keep working on the history as it was. */
  lemma NoChangeNoSnapshot(ed: Editor, id: string, moves: seq<NodeMove>)
    requires Consistent(ed)
    ensures RemoveNode(ed.flow, id) == ed.flow ==> DeleteNode(ed, id) == ed
    ensures MoveNodes(ed.flow, moves) == ed.flow ==> NodesMoved(ed, moves) == ed
  {
  }

  /** Deleting a node no one refers to changes nothing. */
  lemma RemoveAbsentNode(f: Flow, id: string)
    requires id !in NodeIds(f.nodes)
    requires forall c :: c in f.connections ==> c.source != id && c.target != id
    ensures RemoveNode(f, id) == f
  {
    FilterKeepsAll(f.nodes, NodeNotNamed(id));
    FilterKeepsAll(f.connections, NotTouching(id));
  }

  /** Deleting twice is deleting once, and two deletions may happen in either
      order. */
  lemma RemoveNodeOrder(f: Flow, a: string, b: string)
    ensures RemoveNode(RemoveNode(f, a), a) == RemoveNode(f, a)
    ensures RemoveNode(RemoveNode(f, a), b) == RemoveNode(RemoveNode(f, b), a)
  {
    FilterKeepsAll(RemoveNode(f, a).nodes, NodeNotNamed(a));
    FilterKeepsAll(RemoveNode(f, a).connections, NotTouching(a));
    FilterCommutes(f.nodes, NodeNotNamed(a), NodeNotNamed(b));
    FilterCommutes(f.connections, NotTouching(a), NotTouching(b));
  }

  /** Deletion works element by element and keeps the survivors in their
      order: it distributes over concatenation of the node list and of the
      connection list, and keeps a single node or connection exactly when it
      does not carry or touch the deleted id. */
  lemma RemoveNodeKeepsOrder(f: Flow, id: string, ns: seq<FlowNode>, ms: seq<FlowNode>,
                             cs: seq<FlowConnection>, ds: seq<FlowConnection>, n: FlowNode, c: FlowConnection)
    ensures RemoveNode(f.(nodes := ns + ms, connections := cs + ds), id)
            == f.(nodes := RemoveNode(f.(nodes := ns), id).nodes + RemoveNode(f.(nodes := ms), id).nodes,
                  connections := RemoveNode(f.(connections := cs), id).connections
                                 + RemoveNode(f.(connections := ds), id).connections)
    ensures RemoveNode(f.(nodes := [n]), id).nodes == if n.id == id then [] else [n]
    ensures RemoveNode(f.(connections := [c]), id).connections ==
              if c.source == id || c.target == id then [] else [c]
  {
    FilterConcat(ns, ms, NodeNotNamed(id));
    FilterConcat(cs, ds, NotTouching(id));
    assert [n][1..] == [] && [c][1..] == [];
  }

  /** Deleting a node never leaves a connection dangling in a wired flow;
      updating a node in place keeps the flow wired when it keeps the id set. */
  lemma EditsKeepWired(f: Flow, id: string, node: FlowNode)
    requires Wired(f)
    ensures Wired(RemoveNode(f, id))
    ensures node.id in NodeIds(f.nodes) ==> NodeIds(ReplaceNode(f, node).nodes) == NodeIds(f.nodes)
    ensures node.id in NodeIds(f.nodes) ==> Wired(ReplaceNode(f, node))
  {
    if node.id in NodeIds(f.nodes) {
      var r := ReplaceNode(f, node);
      var k :| k in f.nodes && k.id == node.id;
      forall x | x in NodeIds(f.nodes)
        ensures x in NodeIds(r.nodes)
      {
        var i :| 0 <= i < |f.nodes| && f.nodes[i].id == x;
        assert r.nodes[i].id == x;
      }
      forall x | x in NodeIds(r.nodes)
        ensures x in NodeIds(f.nodes)
      {
        var i :| 0 <= i < |r.nodes| && r.nodes[i].id == x;
        assert f.nodes[i].id == x;
      }
    }
  }

  /** Updating with the same node twice is updating once; updating a node
      whose id is absent changes nothing. */
  lemma UpdateNodeIdempotent(f: Flow, node: FlowNode)
    ensures ReplaceNode(ReplaceNode(f, node), node) == ReplaceNode(f, node)
    ensures node.id !in NodeIds(f.nodes) ==> ReplaceNode(f, node) == f
  {
    if node.id !in NodeIds(f.nodes) {
      assert forall i :: 0 <= i < |f.nodes| ==> f.nodes[i] in f.nodes;
    }
  }

  /** An empty move event changes nothing. */
  lemma MoveNothing(f: Flow)
    ensures MoveNodes(f, []) == f
  {
  }

  /** A freshly created node (its id is new, as a random UUID is) has no
      connections yet, so, unless it is a START node, it is reported as not
      reachable, and, unless it is an END node, as having no output. */
  lemma NewNodeIsFlagged(ed: Editor, kind: NodeType, newId: string, drop: Option<Position>, rect: Position)
    requires Valid(ed.history)
    requires newId !in NodeIds(ed.flow.nodes)
    requires forall c :: c in ed.flow.connections ==> c.source != newId && c.target != newId
    ensures var n := NewNode(kind, newId, drop, rect);
            var r := NodeCreated(ed, kind, newId, drop, rect);
            && (Diagnostic(Some(newId), UnreachableMessage(n.data.caption), Warning) in r.diagnostics <==> kind != Start)
            && (Diagnostic(Some(newId), NoOutputMessage(n.data.caption), Warning) in r.diagnostics <==> kind != End)
  {
    var n := NewNode(kind, newId, drop, rect);
    var f := AddNode(ed.flow, n);
    assert NodeCreated(ed, kind, newId, drop, rect).diagnostics == Validate(f);
    AddedNodeIsOnly(ed.flow, n);
    FreshNodeIsFlagged(f, n);
  }

  /** A node added under a new id is the only node of the result with that id. */
  lemma AddedNodeIsOnly(f: Flow, n: FlowNode)
    requires n.id !in NodeIds(f.nodes)
    ensures n in AddNode(f, n).nodes
    ensures forall m :: m in AddNode(f, n).nodes && m.id == n.id ==> m == n
  {
    var r := AddNode(f, n);
    assert forall m :: m in f.nodes ==> m.id in NodeIds(f.nodes);
    assert r.nodes == f.nodes + [n];
  }

  lemma FreshNodeIsFlagged(f: Flow, n: FlowNode)
    requires n in f.nodes
    requires forall m :: m in f.nodes && m.id == n.id ==> m == n
    requires forall c :: c in f.connections ==> c.source != n.id && c.target != n.id
    ensures Diagnostic(Some(n.id), UnreachableMessage(n.data.caption), Warning) in Validate(f) <==> n.kind != Start
    ensures Diagnostic(Some(n.id), NoOutputMessage(n.data.caption), Warning) in Validate(f) <==> n.kind != End
  {
    UnreachableWarningIff(f, n.id, n.data.caption);
    NoOutputWarningIff(f, n.id, n.data.caption);
    assert !HasInput(f.connections, n.id) && !HasOutput(f.connections, n.id);
  }

  /** A new connection from `a` to `b` clears the "not reachable" warning of
      every node named `b` and the "has no output" warning of every node
      named `a`. */
  lemma ConnectionClearsWarnings(f: Flow, connectionId: string, a: string, b: string, caption: string)
    requires b != ""
    ensures var r := AddConnection(f, connectionId, a, b);
            && Diagnostic(Some(b), UnreachableMessage(caption), Warning) !in Validate(r)
            && Diagnostic(Some(a), NoOutputMessage(caption), Warning) !in Validate(r)
  {
    var r := AddConnection(f, connectionId, a, b);
    var c := r.connections[|f.connections|];
    assert c in r.connections;
    UnreachableWarningIff(r, b, caption);
    NoOutputWarningIff(r, a, caption);
  }

  /** Saving the flow and loading the editor again brings the flow back, when
      the store is empty or already begins with a flow of the same id. */
  lemma ReloadAfterSave(ed: Editor, store: Store, ids: SampleIds)
    requires |GetFlows(store)| == 0 || GetFlows(store)[0].id == ed.flow.id
    ensures OnInit(OnSave(ed, store), ids).flow == ed.flow
  {
    var flows := GetFlows(store);
    if |flows| > 0 {
      assert FlowWithId(ed.flow.id)(flows[0]);
      assert FindIndex(flows, FlowWithId(ed.flow.id)) == Some(0);
    }
  }
}

=== FILE: execution.dfy ===
/** The execution engine (src/app/core/services/execution.service.ts): it walks a
    flow from its START node, runs each node by kind, and appends to a log.
    Script and condition evaluation and the HTTP call are supplied as oracles;
    the walk is bounded by fuel because the engine does no cycle detection. */
module Execution {
  import opened Basics
  import opened FlowModel

  datatype Status = Info | Success | Warning | Error

  /** One emitted log record (its timestamp is not modelled). */
  datatype LogEntry = LogEntry(nodeId: string, nodeLabel: string, message: string, status: Status)

  /** A parsed JSON value, as an API response body. */
  datatype Json =
    | JNull
    | JBool(b: bool)
    | JNumber(n: real)
    | JString(s: string)
    | JArray(items: seq<Json>)
    | JObject(members: seq<(string, Json)>)

  /** The per-run context object: its `data` map (where API responses land)
      and whatever other top-level fields scripts create. */
  datatype Context = Context(data: map<string, Json>, fields: map<string, Json>)

  /** The context a run starts from: `{ data: {} }`. */
  const EmptyContext: Context := Context(map[], map[])

  /** What a condition returned: its JavaScript truthiness and its `${}` rendering. */
  datatype Verdict = Verdict(truthy: bool, text: string)

  /** The arguments of the `fetch` an API node makes. */
  datatype HttpRequest = HttpRequest(url: string, httpMethod: HttpMethod, headers: map<string, string>, body: Option<string>)

  /** The host capabilities the engine calls out to. Each may fail with a message. */
  datatype Oracles = Oracles(
    runScript: (string, Context) -> Result<Context>,
    evalCondition: (string, Context) -> Result<(Context, Verdict)>,
    fetch: HttpRequest -> Result<Json>)

  /** The observable engine state: the re-entrancy flag, the active node, and the log so far. */
  datatype Engine = Engine(isRunning: bool, activeNodeId: Option<string>, logs: seq<LogEntry>)

  const FinishedMessage: string := "Flow finished successfully"
  const StoppedMessage: string := "Flow stopped (no more connections)"

  function SystemLog(message: string, status: Status): LogEntry {
    LogEntry("system", "System", message, status)
  }

  const NoStartLog: LogEntry := SystemLog("No Start node found in flow!", Error)
  const StartingLog: LogEntry := SystemLog("Starting execution...", Info)
  const EndedLog: LogEntry := SystemLog("Execution ended", Info)

  function NodeLog(n: FlowNode, message: string, status: Status): LogEntry {
    LogEntry(n.id, n.data.caption, message, status)
  }

  /** The entry logged as a node is entered. */
  function EnterLog(n: FlowNode): LogEntry {
    NodeLog(n, "Executing " + TypeName(n.kind), Info)
  }

  predicate IsErrorLog(l: LogEntry) { l.status == Error }
  predicate IsWarningLog(l: LogEntry) { l.status == Warning }
  predicate IsFinishedLog(l: LogEntry) { l.message == FinishedMessage }

  /** The request an API node sends: its headers laid over a JSON content type,
      and no body for GET. */
  function ApiRequest(cfg: ApiConfig): (r: HttpRequest)
    ensures r.url == cfg.url && r.httpMethod == cfg.httpMethod
    ensures r.body == if cfg.httpMethod == Get then None else cfg.body
    ensures forall k :: k in r.headers <==> k == "Content-Type" || (cfg.headers.Some? && k in cfg.headers.value)
    ensures cfg.headers.Some? ==> forall k :: k in cfg.headers.value ==> r.headers[k] == cfg.headers.value[k]
    ensures cfg.headers.None? || "Content-Type" !in cfg.headers.value ==>
              r.headers["Content-Type"] == "application/json"
  {
    HttpRequest(
      cfg.url,
      cfg.httpMethod,
      map["Content-Type" := "application/json"] + cfg.headers.GetOr(map[]),
      if cfg.httpMethod == Get then None else cfg.body)
  }

  /** A connection leaves `id`, through `port` when a (truthy) port is given. */
  predicate Leaves(c: FlowConnection, id: string, port: Option<string>) {
    c.source == id && (!Truthy(port) || c.sourcePort == port)
  }

  function LeavesVia(id: string, port: Option<string>): FlowConnection -> bool {
    c => Leaves(c, id, port)
  }

  /** `getNextNodeId`: the target of the first connection leaving `id` (through
      `port`, if given), or nothing. */
  function NextNodeId(flow: Flow, id: string, port: Option<string>): (r: Option<string>)
    ensures r.None? <==> forall i :: 0 <= i < |flow.connections| ==> !Leaves(flow.connections[i], id, port)
    ensures r.Some? ==>
              exists i :: 0 <= i < |flow.connections| && Leaves(flow.connections[i], id, port)
                          && flow.connections[i].target == r.value
                          && forall j :: 0 <= j < i ==> !Leaves(flow.connections[j], id, port)
  {
    match FindIndex(flow.connections, LeavesVia(id, port))
    case None => None
    case Some(i) => Some(flow.connections[i].target)
  }

  /** What running one node produced: the logs it emitted (also when it then
      failed), the context it left, and the next node id or the error. */
  datatype NodeOutcome = NodeOutcome(logs: seq<LogEntry>, context: Context, next: Result<Option<string>>)

  /** What a DECISION node's condition yields: the evaluator's answer for a
      truthy condition, otherwise `false` without evaluating anything. */
  function Evaluate(node: FlowNode, ctx: Context, o: Oracles): Result<(Context, Verdict)> {
    if Truthy(node.data.condition) then o.evalCondition(node.data.condition.value, ctx)
    else Ok((ctx, Verdict(false, "false")))
  }

  /** The entry an API node logs before its request. */
  function CallingLog(node: FlowNode, cfg: ApiConfig): LogEntry {
    NodeLog(node, "Calling API: " + MethodName(cfg.httpMethod) + " " + cfg.url, Info)
  }

  /** `executeNode`: dispatch on the node kind. */
  function ExecuteNode(node: FlowNode, flow: Flow, ctx: Context, o: Oracles): (r: NodeOutcome)
    ensures forall l :: l in r.logs ==>
              l.nodeId == node.id && (l.status == Info || l.status == Success) && l.message != FinishedMessage
    ensures node.kind == End ==> r == NodeOutcome([], ctx, Ok(None))
    ensures node.kind == Start || node.kind == Task ==>
              r == NodeOutcome([], ctx, Ok(NextNodeId(flow, node.id, None)))
    ensures node.kind != Decision && node.kind != End && r.next.Ok? ==>
              r.next.value == NextNodeId(flow, node.id, None)
    ensures node.kind == Decision && r.next.Ok? ==>
              && |r.logs| == 1
              && (r.next.value == NextNodeId(flow, node.id, Some("true")) ||
                  r.next.value == NextNodeId(flow, node.id, Some("false")))
    ensures node.kind == Api ==> r.context.fields == ctx.fields
    ensures node.kind == Api ==> forall k :: k in ctx.data && k != node.id ==> k in r.context.data && r.context.data[k] == ctx.data[k]
    ensures r.next.Fail? ==> node.kind in {Script, Decision, Api}
    ensures node.kind == Decision ==>
              var ev := Evaluate(node, ctx, o);
              && (r.next.Fail? <==> ev.Fail?)
              && (ev.Fail? ==> r == NodeOutcome([], ctx, Fail(ev.message)))
              && (ev.Ok? ==>
                    && r.logs == [NodeLog(node, "Condition evaluated to: " + ev.value.1.text, Info)]
                    && r.context == ev.value.0
                    && r.next == Ok(NextNodeId(flow, node.id, Some(if ev.value.1.truthy then "true" else "false"))))
  {
    match node.kind
    case Start => NodeOutcome([], ctx, Ok(NextNodeId(flow, node.id, None)))
    case Task => NodeOutcome([], ctx, Ok(NextNodeId(flow, node.id, None)))
    case Script =>
      if Truthy(node.data.script) then
        match o.runScript(node.data.script.value, ctx)
        case Fail(msg) => NodeOutcome([], ctx, Fail(msg))
        case Ok(ctx') => NodeOutcome([], ctx', Ok(NextNodeId(flow, node.id, None)))
      else NodeOutcome([], ctx, Ok(NextNodeId(flow, node.id, None)))
    case Decision =>
      (match Evaluate(node, ctx, o)
       case Fail(msg) => NodeOutcome([], ctx, Fail(msg))
       case Ok((ctx', v)) =>
         var shown := "Condition evaluated to: " + v.text;
         assert shown[0] != FinishedMessage[0];
         NodeOutcome([NodeLog(node, shown, Info)], ctx',
                     Ok(NextNodeId(flow, node.id, Some(if v.truthy then "true" else "false")))))
    case Api =>
      (match node.data.apiConfig
       case None => NodeOutcome([], ctx, Ok(NextNodeId(flow, node.id, None)))
       case Some(cfg) =>
         var calling := CallingLog(node, cfg);
         assert calling.message[0] != FinishedMessage[0];
         match o.fetch(ApiRequest(cfg))
         case Fail(msg) => NodeOutcome([calling], ctx, Fail(msg))
         case Ok(body) =>
           NodeOutcome([calling, NodeLog(node, "API Response received", Success)],
                       ctx.(data := ctx.data[node.id := body]),
                       Ok(NextNodeId(flow, node.id, None))))
    case End => NodeOutcome([], ctx, Ok(None))
  }

  /** How a walk ended: at an END node, at a missing connection, on a node
      failure, at a next id naming no node, or (model only) with fuel spent. */
  datatype Stop = Finished | Stopped | Failed | Dangling | OutOfFuel

  /** Logs that carry no error, no warning and no success-of-flow message. */
  predicate Quiet(logs: seq<LogEntry>) {
    forall l :: l in logs ==> (l.status == Info || l.status == Success) && l.message != FinishedMessage
  }

  /** `l` is the entry that reports a walk ending with `stop`. */
  predicate Closes(stop: Stop, l: LogEntry) {
    match stop
    case Finished => l.message == FinishedMessage && l.status == Success
    case Stopped => l.message == StoppedMessage && l.status == Warning
    case Failed => l.status == Error && l.message != FinishedMessage
    case _ => false
  }

  /** One turn of the loop: the logs of entering and running a node, then
      either how the walk stops or the node it moves to and the context it carries. */
  datatype Turn =
    | Halt(logs: seq<LogEntry>, stop: Stop)
    | Continue(logs: seq<LogEntry>, successor: FlowNode, context: Context)

  /** The shape every turn of the engine has: it opens with the entry for the
      node, carries no error, warning or success-of-flow entry before its last
      entry, and a halting turn other than a dangling one closes with the entry
      that reports its stop. */
  predicate ProperTurn(node: FlowNode, t: Turn) {
    && |t.logs| > 0
    && t.logs[0] == EnterLog(node)
    && (t.Halt? ==> t.stop != OutOfFuel)
    && (t.Continue? || t.stop == Dangling ==> Quiet(t.logs))
    && (t.Halt? && t.stop != Dangling ==>
          Quiet(t.logs[..|t.logs| - 1]) && Closes(t.stop, t.logs[|t.logs| - 1]))
  }

  ghost predicate ProperStep(step: (FlowNode, Context) -> Turn) {
    forall n, c :: ProperTurn(n, step(n, c))
  }

  /** The rest of a loop iteration once the node has run: the entry for the
      node, then its own logs, then how the turn ends given what it produced. */
  function Conclude(flow: Flow, node: FlowNode, out: NodeOutcome): (t: Turn)
    requires Quiet(out.logs)
    ensures ProperTurn(node, t)
    ensures t.Halt? && t.stop == Finished ==> node.kind == End
    ensures node.kind == End && out.next == Ok(None) ==>
              t == Halt([EnterLog(node)] + out.logs + [NodeLog(node, FinishedMessage, Success)], Finished)
    ensures t.Halt? && t.stop == Failed <==> out.next.Fail?
    ensures out.next.Ok? && !Truthy(out.next.value) <==> t.Halt? && (t.stop == Finished || t.stop == Stopped)
    ensures out.next.Ok? && Truthy(out.next.value) ==>
              (t.Continue? <==> exists n :: n in flow.nodes && n.id == out.next.value.value)
    ensures t.Continue? || t.stop == Dangling ==> t.logs == [EnterLog(node)] + out.logs
    ensures out.next.Fail? ==>
              t.logs == [EnterLog(node)] + out.logs + [NodeLog(node, "Error: " + out.next.message, Error)]
    ensures out.next.Ok? && !Truthy(out.next.value) && node.kind != End ==>
              t.logs == [EnterLog(node)] + out.logs + [NodeLog(node, StoppedMessage, Warning)]
    ensures t.Continue? ==>
              && t.successor in flow.nodes
              && Some(t.successor.id) == out.next.value
              && Find(flow.nodes, WithId(t.successor.id)) == Some(t.successor)
              && t.context == out.context
  {
    var enter := EnterLog(node);
    assert enter.message[0] == 'E';
    match out.next
    case Fail(msg) =>
      var failure := NodeLog(node, "Error: " + msg, Error);
      assert failure.message[0] == 'E';
      Halt([enter] + out.logs + [failure], Failed)
    case Ok(next) =>
      if !Truthy(next) then
        if node.kind == End then Halt([enter] + out.logs + [NodeLog(node, FinishedMessage, Success)], Finished)
        else Halt([enter] + out.logs + [NodeLog(node, StoppedMessage, Warning)], Stopped)
      else
        match Find(flow.nodes, WithId(next.value))
        case None => Halt([enter] + out.logs, Dangling)
        case Some(successor) => Continue([enter] + out.logs, successor, out.context)
  }

  /** One iteration of the `while (currentNode)` loop body. */
  function Step(flow: Flow, o: Oracles, node: FlowNode, ctx: Context): (t: Turn)
    ensures ProperTurn(node, t)
    ensures t.Halt? && t.stop == Finished ==> node.kind == End
    ensures node.kind == End ==>
              t == Halt([EnterLog(node), NodeLog(node, FinishedMessage, Success)], Finished)
    ensures var out := ExecuteNode(node, flow, ctx, o);
            && (t.Halt? && t.stop == Failed <==> out.next.Fail?)
            && (out.next.Ok? && !Truthy(out.next.value) <==> t.Halt? && (t.stop == Finished || t.stop == Stopped))
            && (out.next.Ok? && Truthy(out.next.value) ==>
                  (t.Continue? <==> exists n :: n in flow.nodes && n.id == out.next.value.value))
            && (t.Continue? || t.stop == Dangling ==> t.logs == [EnterLog(node)] + out.logs)
            && (out.next.Fail? ==>
                  t.logs == [EnterLog(node)] + out.logs + [NodeLog(node, "Error: " + out.next.message, Error)])
            && (out.next.Ok? && !Truthy(out.next.value) && node.kind != End ==>
                  t.logs == [EnterLog(node)] + out.logs + [NodeLog(node, StoppedMessage, Warning)])
    ensures t.Continue? ==>
              && t.successor in flow.nodes
              && Some(t.successor.id) == ExecuteNode(node, flow, ctx, o).next.value
              && Find(flow.nodes, WithId(t.successor.id)) == Some(t.successor)
              && t.context == ExecuteNode(node, flow, ctx, o).context
  {
    var out := ExecuteNode(node, flow, ctx, o);
    var t := Conclude(flow, node, out);
    assert node.kind == End ==> t.logs == [t.logs[0], t.logs[1]];
    t
  }

  /** The engine's loop body for one flow and one set of oracles. */
  function StepOf(flow: Flow, o: Oracles): (FlowNode, Context) -> Turn {
    (n: FlowNode, c: Context) => Step(flow, o, n, c)
  }

  lemma StepIsProper(flow: Flow, o: Oracles)
    ensures ProperStep(StepOf(flow, o))
  {
  }

  /** The logs a walk appended, the active-node value it left, and how it ended. */
  datatype Walk = Walk(logs: seq<LogEntry>, active: Option<string>, stop: Stop)

  /** The `while (currentNode)` loop, given its body `step`, from `node` on,
      allowed `fuel` turns; `active` is the active-node value on entry, and
      each turn makes its node the active one. */
  function Loop(step: (FlowNode, Context) -> Turn, node: FlowNode, ctx: Context, active: Option<string>, fuel: nat): (w: Walk)
    ensures fuel == 0 ==> w == Walk([], active, OutOfFuel)
    ensures fuel > 0 ==> w.active.Some?
    decreases fuel
  {
    if fuel == 0 then Walk([], active, OutOfFuel)
    else
      match step(node, ctx)
      case Halt(logs, stop) => Walk(logs, Some(node.id), stop)
      case Continue(logs, successor, ctx') =>
        var rest := Loop(step, successor, ctx', Some(node.id), fuel - 1);
        Walk(logs + rest.logs, rest.active, rest.stop)
  }

  /** A loop over proper turns opens with the entry for its first node and, when
      it stops for a reason that has a report, closes with that report. */
  lemma {:induction false} LoopShape(step: (FlowNode, Context) -> Turn, node: FlowNode, ctx: Context, active: Option<string>, fuel: nat)
    requires ProperStep(step)
    ensures var w := Loop(step, node, ctx, active, fuel);
            && (fuel > 0 ==> |w.logs| > 0 && w.logs[0] == EnterLog(node))
            && (w.stop != Dangling && w.stop != OutOfFuel ==> |w.logs| > 0 && Closes(w.stop, w.logs[|w.logs| - 1]))
    decreases fuel
  {
    if fuel > 0 {
      var t := step(node, ctx);
      assert ProperTurn(node, t);
      if t.Continue? {
        LoopShape(step, t.successor, t.context, Some(node.id), fuel - 1);
      }
    }
  }

  /** The engine's walk through `flow` from `node`. */
  function Traverse(flow: Flow, o: Oracles, node: FlowNode, ctx: Context, active: Option<string>, fuel: nat): (w: Walk)
    ensures fuel > 0 ==> |w.logs| > 0 && w.logs[0] == EnterLog(node) && w.active.Some?
    ensures fuel == 0 ==> w == Walk([], active, OutOfFuel)
    ensures w.stop != Dangling && w.stop != OutOfFuel ==> Closes(w.stop, w.logs[|w.logs| - 1])
  {
    StepIsProper(flow, o);
    LoopShape(StepOf(flow, o), node, ctx, active, fuel);
    Loop(StepOf(flow, o), node, ctx, active, fuel)
  }

  /** After a turn that moves on, the loop carries on from the successor with
      the context the turn left, the turn's node being the active one; its logs
      follow the turn's. */
  lemma TraverseContinues(flow: Flow, o: Oracles, node: FlowNode, ctx: Context, active: Option<string>, fuel: nat)
    requires fuel > 0 && Step(flow, o, node, ctx).Continue?
    ensures var t := Step(flow, o, node, ctx);
            var rest := Traverse(flow, o, t.successor, t.context, Some(node.id), fuel - 1);
            Traverse(flow, o, node, ctx, active, fuel) == Walk(t.logs + rest.logs, rest.active, rest.stop)
  {
    assert StepOf(flow, o)(node, ctx) == Step(flow, o, node, ctx);
  }

  /** The engine's walk is the loop over its step. */
  lemma TraverseIsLoop(flow: Flow, o: Oracles, node: FlowNode, ctx: Context, active: Option<string>, fuel: nat)
    ensures Traverse(flow, o, node, ctx, active, fuel) == Loop(StepOf(flow, o), node, ctx, active, fuel)
  {
  }

  /** A node whose run names the id of a node of the flow hands over to the
      first node with that id, with the context the run left. */
  lemma MovesOn(flow: Flow, o: Oracles, node: FlowNode, ctx: Context, next: FlowNode)
    requires ExecuteNode(node, flow, ctx, o).next == Ok(Some(next.id)) && next.id != ""
    requires Find(flow.nodes, WithId(next.id)) == Some(next)
    ensures var out := ExecuteNode(node, flow, ctx, o);
            Step(flow, o, node, ctx) == Continue([EnterLog(node)] + out.logs, next, out.context)
  {
    var out := ExecuteNode(node, flow, ctx, o);
    assert Step(flow, o, node, ctx) == Conclude(flow, node, out);
  }

  /** `executeFlow`. A call while a run is active changes nothing; with no START
      node it logs one error; otherwise it walks from the first START node and,
      when the walk ends, clears the active node and the running flag and logs
      the end of execution. A walk that runs out of fuel leaves the run active. */
  function ExecuteFlow(e: Engine, flow: Flow, o: Oracles, fuel: nat): (r: Engine)
    ensures e.isRunning ==> r == e
    ensures !e.isRunning ==> |r.logs| > |e.logs| && r.logs[..|e.logs|] == e.logs
    ensures !e.isRunning && Find(flow.nodes, OfType(Start)).None? ==>
              r == e.(logs := e.logs + [NoStartLog])
    ensures !e.isRunning && Find(flow.nodes, OfType(Start)).Some? ==>
              && r.logs[|e.logs|] == StartingLog
              && (!r.isRunning ==> r.activeNodeId.None? && r.logs[|r.logs| - 1] == EndedLog)
              && (r.isRunning ==> r.activeNodeId.Some? || fuel == 0)
              && (r.isRunning <==>
                    Traverse(flow, o, Find(flow.nodes, OfType(Start)).value, EmptyContext, e.activeNodeId, fuel).stop == OutOfFuel)
  {
    if e.isRunning then e
    else
      match Find(flow.nodes, OfType(Start))
      case None => e.(logs := e.logs + [NoStartLog])
      case Some(start) => RunFrom(e, flow, o, start, fuel)
  }

  /** A run once its START node is found: the start entry, the walk from that
      node, and the cleanup when the walk ended. */
  function RunFrom(e: Engine, flow: Flow, o: Oracles, start: FlowNode, fuel: nat): (r: Engine)
    ensures |r.logs| > |e.logs| && r.logs[..|e.logs|] == e.logs && r.logs[|e.logs|] == StartingLog
    ensures !r.isRunning ==> r.activeNodeId.None? && r.logs[|r.logs| - 1] == EndedLog
    ensures r.isRunning ==> r.activeNodeId.Some? || fuel == 0
    ensures r.isRunning <==> Traverse(flow, o, start, EmptyContext, e.activeNodeId, fuel).stop == OutOfFuel
  {
    var w := Traverse(flow, o, start, EmptyContext, e.activeNodeId, fuel);
    var logs := e.logs + [StartingLog] + w.logs;
    if w.stop == OutOfFuel then Engine(true, w.active, logs)
    else Engine(false, None, logs + [EndedLog])
  }

  /** Quiet logs contain no error, no warning and no success-of-flow entry. */
  lemma QuietCounts(logs: seq<LogEntry>)
    requires Quiet(logs)
    ensures Filter(logs, IsErrorLog) == [] && Filter(logs, IsWarningLog) == [] && Filter(logs, IsFinishedLog) == []
  {
    FilterDropsAll(logs, IsErrorLog);
    FilterDropsAll(logs, IsWarningLog);
    FilterDropsAll(logs, IsFinishedLog);
  }

  /** `logs` holds exactly one error if and only if the walk failed, exactly
      one warning if and only if it stopped at a missing connection, and the
      success-of-flow message exactly once if and only if it finished. */
  predicate Counts(logs: seq<LogEntry>, stop: Stop) {
    && |Filter(logs, IsErrorLog)| == (if stop == Failed then 1 else 0)
    && |Filter(logs, IsWarningLog)| == (if stop == Stopped then 1 else 0)
    && |Filter(logs, IsFinishedLog)| == (if stop == Finished then 1 else 0)
  }

  /** The counts of one proper turn; a continuing turn counts like a dangling stop. */
  lemma TurnCounts(node: FlowNode, t: Turn)
    requires ProperTurn(node, t)
    ensures Counts(t.logs, if t.Continue? then Dangling else t.stop)
  {
    if t.Continue? || t.stop == Dangling {
      QuietCounts(t.logs);
    } else {
      var n := |t.logs| - 1;
      assert t.logs == t.logs[..n] + [t.logs[n]];
      QuietCounts(t.logs[..n]);
      FilterConcat(t.logs[..n], [t.logs[n]], IsErrorLog);
      FilterConcat(t.logs[..n], [t.logs[n]], IsWarningLog);
      FilterConcat(t.logs[..n], [t.logs[n]], IsFinishedLog);
    }
  }

  /** Quiet logs followed by counted ones count like the latter. */
  lemma CountsConcat(a: seq<LogEntry>, b: seq<LogEntry>, stop: Stop)
    requires Counts(a, Dangling) && Counts(b, stop)
    ensures Counts(a + b, stop)
  {
    FilterConcat(a, b, IsErrorLog);
    FilterConcat(a, b, IsWarningLog);
    FilterConcat(a, b, IsFinishedLog);
  }

  /** A loop over proper turns logs exactly one error if and only if a node
      failed, exactly one warning if and only if it stopped at a missing
      connection, and the success-of-flow message exactly once if and only if it
      finished; otherwise none of the three. */
  lemma {:induction false} LoopLogCounts(step: (FlowNode, Context) -> Turn, node: FlowNode, ctx: Context, active: Option<string>, fuel: nat)
    requires ProperStep(step)
    ensures var w := Loop(step, node, ctx, active, fuel); Counts(w.logs, w.stop)
    decreases fuel
  {
    if fuel > 0 {
      var t := step(node, ctx);
      TurnCounts(node, t);
      if t.Continue? {
        var rest := Loop(step, t.successor, t.context, Some(node.id), fuel - 1);
        assert Loop(step, node, ctx, active, fuel) == Walk(t.logs + rest.logs, rest.active, rest.stop);
        LoopLogCounts(step, t.successor, t.context, Some(node.id), fuel - 1);
        CountsConcat(t.logs, rest.logs, rest.stop);
      } else {
        assert Loop(step, node, ctx, active, fuel) == Walk(t.logs, Some(node.id), t.stop);
      }
    }
  }

  /** The engine's walk: one error exactly when a node failed, one warning
      exactly when it stopped at a missing connection, one success-of-flow
      entry exactly when it finished at an END node. */
  lemma WalkLogCounts(flow: Flow, o: Oracles, node: FlowNode, ctx: Context, active: Option<string>, fuel: nat)
    ensures var w := Traverse(flow, o, node, ctx, active, fuel); Counts(w.logs, w.stop)
  {
    StepIsProper(flow, o);
    LoopLogCounts(StepOf(flow, o), node, ctx, active, fuel);
  }

  /** Fuel only bounds the loop: a loop that ended within some fuel ends the
      same way with any more. */
  lemma {:induction false} FuelMonotone(step: (FlowNode, Context) -> Turn, node: FlowNode, ctx: Context, active: Option<string>, fuel: nat, more: nat)
    requires fuel <= more
    requires Loop(step, node, ctx, active, fuel).stop != OutOfFuel
    ensures Loop(step, node, ctx, active, more) == Loop(step, node, ctx, active, fuel)
    decreases fuel
  {
    var t := step(node, ctx);
    if t.Continue? {
      FuelMonotone(step, t.successor, t.context, Some(node.id), fuel - 1, more - 1);
    }
  }

  /** Entering an END node finishes the walk with the success message. */
  lemma EndNodeFinishes(flow: Flow, o: Oracles, node: FlowNode, ctx: Context, active: Option<string>, fuel: nat)
    requires node.kind == End && fuel > 0
    ensures Traverse(flow, o, node, ctx, active, fuel) ==
            Walk([EnterLog(node), NodeLog(node, FinishedMessage, Success)], Some(node.id), Finished)
  {
  }

  /** The engine does not detect cycles: a TASK node whose first output leads
      back to itself is entered again and again until the fuel is spent. */
  lemma SelfLoopNeverEnds(flow: Flow, o: Oracles, node: FlowNode, ctx: Context, active: Option<string>, fuel: nat)
    requires node.kind == Task && node.id != ""
    requires NextNodeId(flow, node.id, None) == Some(node.id)
    requires Find(flow.nodes, WithId(node.id)) == Some(node)
    ensures Traverse(flow, o, node, ctx, active, fuel).stop == OutOfFuel
    ensures |Traverse(flow, o, node, ctx, active, fuel).logs| == fuel
  {
    forall c: Context
      ensures StepOf(flow, o)(node, c) == Continue([EnterLog(node)], node, c)
    {
    }
    LoopSelf(StepOf(flow, o), node, ctx, active, fuel, [EnterLog(node)]);
  }

  /** A loop whose body always re-enters the same node with the same context,
      logging one entry each time, spends all its fuel. */
  lemma {:induction false} LoopSelf(step: (FlowNode, Context) -> Turn, node: FlowNode, ctx: Context, active: Option<string>, fuel: nat, logs: seq<LogEntry>)
    requires |logs| == 1
    requires forall c: Context :: step(node, c) == Continue(logs, node, c)
    ensures Loop(step, node, ctx, active, fuel).stop == OutOfFuel
    ensures |Loop(step, node, ctx, active, fuel).logs| == fuel
    decreases fuel
  {
    if fuel > 0 {
      assert step(node, ctx) == Continue(logs, node, ctx);
      LoopSelf(step, node, ctx, Some(node.id), fuel - 1, logs);
    }
  }

  /** A DECISION without a (non-empty) condition counts as false: it logs that
      and follows the "false" port. */
  lemma DecisionWithoutCondition(node: FlowNode, flow: Flow, ctx: Context, o: Oracles)
    requires node.kind == Decision && !Truthy(node.data.condition)
    ensures ExecuteNode(node, flow, ctx, o) ==
            NodeOutcome([NodeLog(node, "Condition evaluated to: " + "false", Info)], ctx,
                        Ok(NextNodeId(flow, node.id, Some("false"))))
  {
  }

  /** A DECISION whose outputs carry no "true"/"false" port halts the walk after
      its evaluation, with the one warning and no further node entered. */
  lemma DecisionWithoutPortsStops(flow: Flow, o: Oracles, node: FlowNode, ctx: Context, active: Option<string>, fuel: nat)
    requires node.kind == Decision && fuel > 0
    requires ExecuteNode(node, flow, ctx, o).next.Ok?
    requires forall c :: c in flow.connections && c.source == node.id ==>
               c.sourcePort != Some("true") && c.sourcePort != Some("false")
    ensures var w := Traverse(flow, o, node, ctx, active, fuel);
            && w.stop == Stopped
            && |w.logs| == 3
            && w.logs[2] == NodeLog(node, StoppedMessage, Warning)
  {
    var out := ExecuteNode(node, flow, ctx, o);
    NoPortNoNext(flow, node.id);
    var logs := [EnterLog(node)] + out.logs + [NodeLog(node, StoppedMessage, Warning)];
    assert Step(flow, o, node, ctx) == Halt(logs, Stopped);
    HaltingTurn(flow, o, node, ctx, active, fuel);
  }

  /** With no output tagged "true" or "false", neither port leads anywhere. */
  lemma NoPortNoNext(flow: Flow, id: string)
    requires forall c :: c in flow.connections && c.source == id ==>
               c.sourcePort != Some("true") && c.sourcePort != Some("false")
    ensures NextNodeId(flow, id, Some("true")).None? && NextNodeId(flow, id, Some("false")).None?
  {
    forall i | 0 <= i < |flow.connections|
      ensures !Leaves(flow.connections[i], id, Some("true"))
      ensures !Leaves(flow.connections[i], id, Some("false"))
    {
      assert flow.connections[i] in flow.connections;
    }
  }

  /** A walk whose first turn halts is that turn. */
  lemma HaltingTurn(flow: Flow, o: Oracles, node: FlowNode, ctx: Context, active: Option<string>, fuel: nat)
    requires fuel > 0 && Step(flow, o, node, ctx).Halt?
    ensures Traverse(flow, o, node, ctx, active, fuel) ==
            Walk(Step(flow, o, node, ctx).logs, Some(node.id), Step(flow, o, node, ctx).stop)
  {
    assert StepOf(flow, o)(node, ctx) == Step(flow, o, node, ctx);
  }

  /** An API node with a configuration stores the response body under its own
      id in `data`; one without a configuration only advances. */
  lemma ApiStoresResponse(node: FlowNode, flow: Flow, ctx: Context, o: Oracles)
    requires node.kind == Api
    ensures node.data.apiConfig.None? ==>
              ExecuteNode(node, flow, ctx, o) == NodeOutcome([], ctx, Ok(NextNodeId(flow, node.id, None)))
    ensures node.data.apiConfig.Some? && o.fetch(ApiRequest(node.data.apiConfig.value)).Ok? ==>
              && ExecuteNode(node, flow, ctx, o).context.data ==
                 ctx.data[node.id := o.fetch(ApiRequest(node.data.apiConfig.value)).value]
              && ExecuteNode(node, flow, ctx, o).next == Ok(NextNodeId(flow, node.id, None))
              && ExecuteNode(node, flow, ctx, o).logs ==
                 [CallingLog(node, node.data.apiConfig.value), NodeLog(node, "API Response received", Success)]
    ensures node.data.apiConfig.Some? ==>
              (ExecuteNode(node, flow, ctx, o).next.Fail? <==> o.fetch(ApiRequest(node.data.apiConfig.value)).Fail?)
    ensures node.data.apiConfig.Some? && o.fetch(ApiRequest(node.data.apiConfig.value)).Fail? ==>
              ExecuteNode(node, flow, ctx, o) ==
              NodeOutcome([CallingLog(node, node.data.apiConfig.value)], ctx,
                          Fail(o.fetch(ApiRequest(node.data.apiConfig.value)).message))
  {
  }

  /** A SCRIPT node runs its script only when it is truthy; the node fails
      exactly when the script throws, and otherwise carries on with the
      context the script left. It logs nothing of its own. */
  lemma ScriptRunsItsScript(node: FlowNode, flow: Flow, ctx: Context, o: Oracles)
    requires node.kind == Script
    ensures !Truthy(node.data.script) ==>
              ExecuteNode(node, flow, ctx, o) == NodeOutcome([], ctx, Ok(NextNodeId(flow, node.id, None)))
    ensures Truthy(node.data.script) ==>
              var run := o.runScript(node.data.script.value, ctx);
              var r := ExecuteNode(node, flow, ctx, o);
              && r.logs == []
              && (r.next.Fail? <==> run.Fail?)
              && (run.Fail? ==> r.next == Fail(run.message) && r.context == ctx)
              && (run.Ok? ==> r.context == run.value && r.next == Ok(NextNodeId(flow, node.id, None)))
  {
  }

  /** A run starts at the first START node in node order and enters it first. */
  lemma RunEntersFirstStart(e: Engine, flow: Flow, o: Oracles, fuel: nat, i: nat)
    requires !e.isRunning && fuel > 0
    requires i < |flow.nodes| && flow.nodes[i].kind == Start
    requires forall j :: 0 <= j < i ==> flow.nodes[j].kind != Start
    ensures var r := ExecuteFlow(e, flow, o, fuel);
            |r.logs| > |e.logs| + 1 && r.logs[|e.logs| + 1] == EnterLog(flow.nodes[i])
  {
    assert OfType(Start)(flow.nodes[i]);
    assert FindIndex(flow.nodes, OfType(Start)) == Some(i);
  }

  /** A finished run appends exactly: the start entry, the walk from the first
      START node, and the end entry; it contains at most one error. */
  lemma RunLogs(e: Engine, flow: Flow, o: Oracles, fuel: nat)
    requires !e.isRunning
    ensures var r := ExecuteFlow(e, flow, o, fuel);
            |Filter(r.logs[|e.logs|..], IsErrorLog)| <= 1
    ensures var r := ExecuteFlow(e, flow, o, fuel);
            Find(flow.nodes, OfType(Start)).Some? &&
            Traverse(flow, o, Find(flow.nodes, OfType(Start)).value, EmptyContext, e.activeNodeId, fuel).stop != OutOfFuel ==>
              var w := Traverse(flow, o, Find(flow.nodes, OfType(Start)).value, EmptyContext, e.activeNodeId, fuel);
              && !r.isRunning && r.activeNodeId.None?
              && r.logs == e.logs + [StartingLog] + w.logs + [EndedLog]
              && (|Filter(r.logs[|e.logs|..], IsErrorLog)| == 1 <==> w.stop == Failed)
  {
    var r := ExecuteFlow(e, flow, o, fuel);
    match Find(flow.nodes, OfType(Start))
    case None =>
      assert r.logs[|e.logs|..] == [NoStartLog];
    case Some(start) =>
      var w := Traverse(flow, o, start, EmptyContext, e.activeNodeId, fuel);
      WalkLogCounts(flow, o, start, EmptyContext, e.activeNodeId, fuel);
      RunErrorCount(e.logs, w.logs, r.logs, !r.isRunning);
  }

  /** The errors of a run's own entries are those of its walk. */
  lemma RunErrorCount(before: seq<LogEntry>, walk: seq<LogEntry>, after: seq<LogEntry>, ended: bool)
    requires after == before + [StartingLog] + walk + (if ended then [EndedLog] else [])
    ensures |Filter(after[|before|..], IsErrorLog)| == |Filter(walk, IsErrorLog)|
  {
    var tail := if ended then [EndedLog] else [];
    assert after[|before|..] == [StartingLog] + walk + tail;
    FilterConcat([StartingLog] + walk, tail, IsErrorLog);
    FilterConcat([StartingLog], walk, IsErrorLog);
    FilterDropsAll(tail, IsErrorLog);
  }
}

=== FILE: flow_model.dfy ===
/** The flow document: typed nodes joined by directed connections, as stored,
    edited, validated and executed (src/app/core/models/flow.model.ts). */
module FlowModel {
  import opened Basics

  /** The closed set of step kinds. */
  datatype NodeType = Start | Task | Decision | Script | Api | End

  /** The string value of each enum member, as it appears in documents and logs. */
  function TypeName(t: NodeType): string {
    match t
    case Start => "START"
    case Task => "TASK"
    case Decision => "DECISION"
    case Script => "SCRIPT"
    case Api => "API"
    case End => "END"
  }

  /** Reads a node kind back from its string value; any other string is not a kind. */
  function ParseNodeType(s: string): (r: Option<NodeType>)
    ensures r.Some? ==> TypeName(r.value) == s
  {
    if s == "START" then Some(Start)
    else if s == "TASK" then Some(Task)
    else if s == "DECISION" then Some(Decision)
    else if s == "SCRIPT" then Some(Script)
    else if s == "API" then Some(Api)
    else if s == "END" then Some(End)
    else None
  }

  /** The six names are the only kinds there are: a string parses exactly when
      it is one of them, and each kind parses back from its own name. */
  lemma NodeTypeIsClosed(s: string, t: NodeType)
    ensures ParseNodeType(TypeName(t)) == Some(t)
    ensures ParseNodeType(s).Some? <==> s in ["START", "TASK", "DECISION", "SCRIPT", "API", "END"]
    ensures ParseNodeType(s) == Some(t) <==> s == TypeName(t)
  {
  }

  /** The HTTP verbs an API step may use. */
  datatype HttpMethod = Get | Post | Put | Delete

  function MethodName(m: HttpMethod): string {
    match m
    case Get => "GET"
    case Post => "POST"
    case Put => "PUT"
    case Delete => "DELETE"
  }

  function ParseMethod(s: string): (r: Option<HttpMethod>)
    ensures r.Some? ==> MethodName(r.value) == s
  {
    if s == "GET" then Some(Get)
    else if s == "POST" then Some(Post)
    else if s == "PUT" then Some(Put)
    else if s == "DELETE" then Some(Delete)
    else None
  }

  /** A method string is accepted exactly when it is GET, POST, PUT or DELETE. */
  lemma MethodIsClosed(s: string, m: HttpMethod)
    ensures ParseMethod(MethodName(m)) == Some(m)
    ensures ParseMethod(s).Some? <==> s in ["GET", "POST", "PUT", "DELETE"]
    ensures ParseMethod(s) == Some(m) <==> s == MethodName(m)
  {
  }

  /** The request an API step issues; headers are a string-to-string mapping. */
  datatype ApiConfig = ApiConfig(
    url: string,
    httpMethod: HttpMethod,
    headers: Option<map<string, string>>,
    body: Option<string>)

  /** A step's payload: a label (`caption`, as `label` is a Dafny keyword) always,
      everything else optional. */
  datatype NodeData = NodeData(
    caption: string, 
    description: Option<string>,
    script: Option<string>,
    condition: Option<string>,
    apiConfig: Option<ApiConfig>)

  /** Canvas coordinates; cosmetic, never inspected by validation or execution. */
  datatype Position = Position(x: real, y: real)

  datatype FlowNode = FlowNode(id: string, kind: NodeType, position: Position, data: NodeData)

  /** A directed edge; `sourcePort` tags the outputs of a decision ("true"/"false"). */
  datatype FlowConnection = FlowConnection(id: string, source: string, target: string, sourcePort: Option<string>)

  datatype Flow = Flow(
    id: string,
    name: string,
    description: Option<string>,
    nodes: seq<FlowNode>,
    connections: seq<FlowConnection>)

  /** The node test `n.type === t`, as a value that filters and searches can take. */
  function OfType(t: NodeType): FlowNode -> bool {
    (n: FlowNode) => n.kind == t
  }

  /** The node test `n.id === id`. */
  function WithId(id: string): FlowNode -> bool {
    (n: FlowNode) => n.id == id
  }

  /** Some connection ends at `id`. */
  predicate HasInput(connections: seq<FlowConnection>, id: string) {
    exists c :: c in connections && c.target == id
  }

  /** Some connection starts at `id`. */
  predicate HasOutput(connections: seq<FlowConnection>, id: string) {
    exists c :: c in connections && c.source == id
  }

  /** The ids of the given nodes. */
  function NodeIds(nodes: seq<FlowNode>): set<string> {
    set n | n in nodes :: n.id
  }
}

=== FILE: history.dfy ===
/** The snapshot history behind undo/redo (src/app/core/services/history.service.ts):
    a list of snapshots and a cursor into it. Snapshots are immutable values, so
    the service's JSON deep copies are the identity here and its
    string-equality test is structural equality. */
module Snapshots {
  import opened Basics

  datatype History<T> = History(snapshots: seq<T>, cursor: int)

  /** The result of undo/redo: the new history and the state handed back, if any. */
  datatype Moved<T> = Moved(history: History<T>, state: Option<T>)

  /** The service as constructed: no snapshots, cursor at -1. */
  function Empty<T>(): History<T> {
    History([], -1)
  }

  /** Every state the service can reach: the empty one, or a cursor inside the list. */
  predicate Valid<T>(h: History<T>) {
    (h.cursor == -1 && |h.snapshots| == 0) || Initialized(h)
  }

  predicate Initialized<T>(h: History<T>) {
    0 <= h.cursor < |h.snapshots|
  }

  predicate CanUndo<T>(h: History<T>) {
    h.cursor > 0
  }

  predicate CanRedo<T>(h: History<T>) {
    h.cursor < |h.snapshots| - 1
  }

  /** `currentState`: the snapshot under the cursor, `null` before `init`. */
  function CurrentState<T>(h: History<T>): (r: Option<T>)
    ensures r.Some? <==> Initialized(h)
    ensures r.Some? ==> r.value in h.snapshots
  {
    if 0 <= h.cursor < |h.snapshots| then Some(h.snapshots[h.cursor]) else None
  }

  /** `init`: one snapshot, nothing to undo or redo. */
  function Init<T>(s: T): (r: History<T>)
    ensures Initialized(r) && |r.snapshots| == 1
    ensures CurrentState(r) == Some(s)
    ensures !CanUndo(r) && !CanRedo(r)
  {
    History([s], 0)
  }

  /** `push`: a state equal to the current one changes nothing (the redo branch
      survives); any other state replaces everything after the cursor. */
  function Push<T(==)>(h: History<T>, s: T): (r: History<T>)
    requires Valid(h)
    ensures Initialized(r)
    ensures CurrentState(r) == Some(s)
    ensures CurrentState(h) == Some(s) ==> r == h
    ensures CurrentState(h) != Some(s) ==>
              && r.cursor == h.cursor + 1
              && |r.snapshots| == r.cursor + 1
              && r.snapshots[..r.cursor] == h.snapshots[..h.cursor + 1]
              && !CanRedo(r)
  {
    var kept := h.snapshots[..h.cursor + 1];
    if |kept| > 0 && kept[|kept| - 1] == s then h
    else History(kept + [s], |kept|)
  }

  /** `undo`: step the cursor back and hand back the snapshot now under it;
      at the first snapshot, hand back nothing and change nothing. */
  function Undo<T>(h: History<T>): (r: Moved<T>)
    requires Valid(h)
    ensures Valid(r.history)
    ensures r.history.snapshots == h.snapshots
    ensures !CanUndo(h) ==> r == Moved(h, None)
    ensures CanUndo(h) ==> r.history.cursor == h.cursor - 1 && r.state.Some?
    ensures r.state.Some? ==> r.state == CurrentState(r.history)
  {
    if CanUndo(h) then
      var h' := h.(cursor := h.cursor - 1);
      Moved(h', Some(h.snapshots[h'.cursor]))
    else Moved(h, None)
  }

  /** `redo`: step the cursor forward and hand back the snapshot now under it;
      at the last snapshot, hand back nothing and change nothing. */
  function Redo<T>(h: History<T>): (r: Moved<T>)
    requires Valid(h)
    ensures Valid(r.history)
    ensures r.history.snapshots == h.snapshots
    ensures !CanRedo(h) ==> r == Moved(h, None)
    ensures CanRedo(h) ==> r.history.cursor == h.cursor + 1 && r.state.Some?
    ensures r.state.Some? ==> r.state == CurrentState(r.history)
  {
    if CanRedo(h) then
      var h' := h.(cursor := h.cursor + 1);
      Moved(h', Some(h.snapshots[h'.cursor]))
    else Moved(h, None)
  }

  /** Once initialized, the cursor stays inside the list whatever is done next. */
  lemma StaysInitialized<T>(h: History<T>, s: T)
    requires Initialized(h)
    ensures Initialized(Push(h, s))
    ensures Initialized(Undo(h).history)
    ensures Initialized(Redo(h).history)
  {
  }

  /** A successful undo is reversed by redo, which hands back the state that was current. */
  lemma UndoThenRedo<T>(h: History<T>)
    requires Valid(h) && CanUndo(h)
    ensures Redo(Undo(h).history) == Moved(h, CurrentState(h))
  {
  }

  /** A successful redo is reversed by undo, which hands back the state that was current. */
  lemma RedoThenUndo<T>(h: History<T>)
    requires Valid(h) && CanRedo(h)
    ensures Undo(Redo(h).history) == Moved(h, CurrentState(h))
  {
  }

  /** Undo right after pushing a new state hands back the state that was
      current before the push, and redo then hands back the pushed state. */
  lemma PushThenUndo<T>(h: History<T>, s: T)
    requires Initialized(h) && CurrentState(h) != Some(s)
    ensures var u := Undo(Push(h, s));
            && u.state == CurrentState(h) && u.history.cursor == h.cursor
            && CanRedo(u.history) && Redo(u.history).state == Some(s)
  {
    var r := Push(h, s);
    assert r.snapshots[h.cursor] == r.snapshots[..r.cursor][h.cursor];
  }

  /** Pushing before any `init` behaves like `init`. */
  lemma PushBeforeInit<T>(s: T)
    ensures Push(Empty(), s) == Init(s)
  {
  }

  /** Undoing twice and then pushing a new state discards the two undone
      snapshots and leaves nothing to redo. */
  lemma UndoTwiceThenPush<T>(h: History<T>, s: T)
    requires Initialized(h) && h.cursor >= 2
    requires s != h.snapshots[h.cursor - 2]
    ensures var h2 := Undo(Undo(h).history).history;
            var r := Push(h2, s);
            && r.snapshots == h.snapshots[..h.cursor - 1] + [s]
            && CurrentState(r) == Some(s)
            && CanUndo(r) && !CanRedo(r)
  {
    var h2 := Undo(Undo(h).history).history;
    assert h2.cursor == h.cursor - 2;
    var r := Push(h2, s);
    assert r.snapshots == r.snapshots[..r.cursor] + [r.snapshots[r.cursor]];
  }
}

=== FILE: persistence.dfy ===
/** The flow store (src/app/core/services/persistence.service.ts): one storage
    key holding the list of saved flows. The stored value is modelled as the
    list itself (absent before anything was saved); the JSON round trip
    through the string the service writes is the identity on flows. */
module Persistence {
  import opened Basics
  import opened FlowModel

  /** The content of the storage key: `None` while it was never written. */
  type Store = Option<seq<Flow>>

  /** The flow test `f.id === id`. */
  function FlowWithId(id: string): Flow -> bool {
    (f: Flow) => f.id == id
  }

  /** The flow test `f.id !== id`. */
  function OtherId(id: string): Flow -> bool {
    (f: Flow) => f.id != id
  }

  /** `getFlows`: the stored list, or no flows when the key is absent. */
  function GetFlows(store: Store): (r: seq<Flow>)
    ensures store.None? ==> r == []
    ensures store.Some? ==> r == store.value
  {
    store.GetOr([])
  }

  /** `getFlowById`: the first stored flow with that id, if there is one. */
  function GetFlowById(store: Store, id: string): (r: Option<Flow>)
    ensures r.Some? ==> r.value in GetFlows(store) && r.value.id == id
    ensures r.None? <==> forall f :: f in GetFlows(store) ==> f.id != id
    ensures r.Some? ==> exists i :: 0 <= i < |GetFlows(store)| && GetFlows(store)[i] == r.value
                                     && forall j :: 0 <= j < i ==> GetFlows(store)[j].id != id
  {
    Find(GetFlows(store), FlowWithId(id))
  }

  /** `saveFlow`: replace the first stored flow with the same id in place, or
      append the flow when no stored flow has its id. */
  function SaveFlow(store: Store, flow: Flow): (r: Store)
    ensures r.Some?
    ensures flow in r.value
    ensures (exists f :: f in GetFlows(store) && f.id == flow.id) ==>
              |r.value| == |GetFlows(store)|
    ensures (forall f :: f in GetFlows(store) ==> f.id != flow.id) ==>
              r.value == GetFlows(store) + [flow]
    ensures forall i :: 0 <= i < |r.value| && r.value[i].id != flow.id ==>
              i < |GetFlows(store)| && r.value[i] == GetFlows(store)[i]
    ensures forall i :: 0 <= i < |GetFlows(store)| && r.value[i] != GetFlows(store)[i] ==>
              r.value[i] == flow && forall j :: 0 <= j < i ==> GetFlows(store)[j].id != flow.id
  {
    var flows := GetFlows(store);
    match FindIndex(flows, FlowWithId(flow.id))
    case Some(i) =>
      assert flows[i := flow][i] == flow;
      Some(flows[i := flow])
    case None => Some(flows + [flow])
  }

  /** `deleteFlow`: keep every stored flow whose id differs, in order. */
  function DeleteFlow(store: Store, id: string): (r: Store)
    ensures r.Some?
    ensures forall f :: f in r.value <==> f in GetFlows(store) && f.id != id
    ensures |r.value| <= |GetFlows(store)|
  {
    Some(Filter(GetFlows(store), OtherId(id)))
  }

  /** A saved flow is what a lookup of its id then returns. */
  lemma GetAfterSave(store: Store, flow: Flow)
    ensures GetFlowById(SaveFlow(store, flow), flow.id) == Some(flow)
  {
    var flows := GetFlows(store);
    var p := FlowWithId(flow.id);
    var r := SaveFlow(store, flow).value;
    match FindIndex(flows, p)
    case Some(i) =>
      assert p(r[i]);
      FindIndexAgree(flows, r, p);
    case None =>
      FindIndexAgree(flows, flows, p);
      assert p(r[|flows|]);
      assert FindIndex(r, p) == Some(|flows|);
  }

  /** Saving a flow leaves the lookup of every other id as it was. */
  lemma SaveKeepsOthers(store: Store, flow: Flow, id: string)
    requires id != flow.id
    ensures GetFlowById(SaveFlow(store, flow), id) == GetFlowById(store, id)
  {
    var flows := GetFlows(store);
    var p := FlowWithId(id);
    match FindIndex(flows, FlowWithId(flow.id))
    case Some(i) =>
      FindIgnoresUpdate(flows, i, flow, p);
    case None =>
      FindIgnoresAppend(flows, flow, p);
  }

  /** Saving the same flow twice stores what saving it once does. */
  lemma SaveIdempotent(store: Store, flow: Flow)
    ensures SaveFlow(SaveFlow(store, flow), flow) == SaveFlow(store, flow)
  {
    var r := SaveFlow(store, flow).value;
    GetAfterSave(store, flow);
    var i := FindIndex(r, FlowWithId(flow.id)).value;
    assert r[i := flow] == r;
  }

  /** After a delete, no flow with that id can be found. */
  lemma GetAfterDelete(store: Store, id: string)
    ensures GetFlowById(DeleteFlow(store, id), id).None?
  {
  }

  /** Deleting one id leaves the lookup of every other id as it was. */
  lemma DeleteKeepsOthers(store: Store, id: string, other: string)
    requires other != id
    ensures GetFlowById(DeleteFlow(store, id), other) == GetFlowById(store, other)
  {
    FindThroughFilter(GetFlows(store), OtherId(id), FlowWithId(other));
  }

  /** Deleting keeps the other flows in their order: it distributes over
      concatenation of stored lists, and keeps a single flow exactly when its
      id differs. */
  lemma DeleteKeepsOrder(a: seq<Flow>, b: seq<Flow>, f: Flow, id: string)
    ensures DeleteFlow(Some(a + b), id) == Some(DeleteFlow(Some(a), id).value + DeleteFlow(Some(b), id).value)
    ensures DeleteFlow(Some([f]), id) == Some(if f.id == id then [] else [f])
  {
    FilterConcat(a, b, OtherId(id));
    assert [f][1..] == [];
    assert Filter([f], OtherId(id)) == (if f.id != id then [f] else []) + Filter([], OtherId(id));
    if f.id == id {
      assert Filter([f], OtherId(id)) == [];
    } else {
      assert Filter([f], OtherId(id)) == [f];
    }
  }

  /** Deleting is idempotent. */
  lemma DeleteIdempotent(store: Store, id: string)
    ensures DeleteFlow(DeleteFlow(store, id), id) == DeleteFlow(store, id)
  {
    FilterKeepsAll(DeleteFlow(store, id).value, OtherId(id));
  }

  /** Deleting a flow just saved removes exactly what deleting its id before
      the save would have: the other flows stay, in their order. */
  lemma DeleteAfterSave(store: Store, flow: Flow)
    ensures DeleteFlow(SaveFlow(store, flow), flow.id) == DeleteFlow(store, flow.id)
  {
    var flows := GetFlows(store);
    var keep := OtherId(flow.id);
    match FindIndex(flows, FlowWithId(flow.id))
    case Some(i) =>
      FilterIgnoresUpdate(flows, i, flow, keep);
    case None =>
      assert SaveFlow(store, flow) == Some(flows + [flow]);
      FilterConcat(flows, [flow], keep);
      FilterDropsAll([flow], keep);
      assert Filter(flows + [flow], keep) == Filter(flows, keep);
  }
}

=== FILE: validation.dfy ===
/** The structural validator (src/app/core/services/validation.service.ts):
    a total, pure map from a flow to an ordered list of advisory diagnostics. */
module Validation {
  import opened Basics
  import opened FlowModel

  datatype Severity = Error | Warning

  /** One finding; `nodeId` is present for the per-node rules only. */
  datatype Diagnostic = Diagnostic(nodeId: Option<string>, message: string, severity: Severity)

  const NoStartMessage: string := "Flow must have a Start node."
  const ManyStartsMessage: string := "Flow can only have one Start node."
  const NoEndMessage: string := "Flow should have at least one End node."

  function UnreachableMessage(caption: string): string {
    "Node \"" + caption + "\" is not reachable."
  }

  function NoOutputMessage(caption: string): string {
    "Node \"" + caption + "\" has no output."
  }

  function StartCount(nodes: seq<FlowNode>): nat {
    |Filter(nodes, OfType(Start))|
  }

  function EndCount(nodes: seq<FlowNode>): nat {
    |Filter(nodes, OfType(End))|
  }

  predicate IsError(d: Diagnostic) {
    d.severity == Error
  }

  /** A warning about the flow as a whole rather than about one node. */
  predicate IsFlowWarning(d: Diagnostic) {
    d.nodeId.None? && d.severity == Warning
  }

  /** Rule 3: a node other than START that no connection targets. */
  predicate Unreachable(connections: seq<FlowConnection>, n: FlowNode) {
    n.kind != Start && !HasInput(connections, n.id)
  }

  /** Rule 4: a node other than END that no connection leaves. */
  predicate DeadEnd(connections: seq<FlowConnection>, n: FlowNode) {
    n.kind != End && !HasOutput(connections, n.id)
  }

  /** The START rule's diagnostics: at most one, an error decided by the START count. */
  function StartDiagnostics(nodes: seq<FlowNode>): seq<Diagnostic> {
    if StartCount(nodes) == 0 then [Diagnostic(None, NoStartMessage, Error)]
    else if StartCount(nodes) > 1 then [Diagnostic(None, ManyStartsMessage, Error)]
    else []
  }

  /** The END rule's diagnostics: a warning exactly when there is no END. */
  function EndDiagnostics(nodes: seq<FlowNode>): seq<Diagnostic> {
    if EndCount(nodes) == 0 then [Diagnostic(None, NoEndMessage, Warning)] else []
  }

  /** Rules 1 and 2, which look at the node kinds only. */
  function FlowDiagnostics(nodes: seq<FlowNode>): seq<Diagnostic> {
    StartDiagnostics(nodes) + EndDiagnostics(nodes)
  }

  /** Rules 3 and 4 for one node, "not reachable" first. */
  function NodeDiagnostics(connections: seq<FlowConnection>, n: FlowNode): (r: seq<Diagnostic>)
    ensures |r| <= 2
    ensures forall d :: d in r ==> d.nodeId == Some(n.id) && d.severity == Warning
    ensures |r| == 2 ==> r[0].message == UnreachableMessage(n.data.caption) && r[1].message == NoOutputMessage(n.data.caption)
  {
    (if Unreachable(connections, n)
     then [Diagnostic(Some(n.id), UnreachableMessage(n.data.caption), Warning)] else [])
    + (if DeadEnd(connections, n)
       then [Diagnostic(Some(n.id), NoOutputMessage(n.data.caption), Warning)] else [])
  }

  /** Rules 3 and 4 for every node, in node order. */
  function PerNodeDiagnostics(connections: seq<FlowConnection>, nodes: seq<FlowNode>): (r: seq<Diagnostic>)
    ensures |r| <= 2 * |nodes|
    ensures forall d :: d in r ==> d.severity == Warning && d.nodeId.Some? && d.nodeId.value in NodeIds(nodes)
  {
    if |nodes| == 0 then []
    else
      assert NodeIds(nodes[1..]) <= NodeIds(nodes) by {
        assert forall n :: n in nodes[1..] ==> n in nodes;
      }
      assert nodes[0] in nodes;
      NodeDiagnostics(connections, nodes[0]) + PerNodeDiagnostics(connections, nodes[1..])
  }

  /** `validateFlow`: the START rule, the END rule, then the per-node rules. */
  function Validate(f: Flow): (r: seq<Diagnostic>)
    ensures |r| <= 2 + 2 * |f.nodes|
    ensures Filter(r, IsError) ==
              if StartCount(f.nodes) == 0 then [Diagnostic(None, NoStartMessage, Error)]
              else if StartCount(f.nodes) > 1 then [Diagnostic(None, ManyStartsMessage, Error)]
              else []
    ensures Filter(r, IsFlowWarning) ==
              if EndCount(f.nodes) == 0 then [Diagnostic(None, NoEndMessage, Warning)] else []
    ensures forall d :: d in r && d.nodeId.Some? ==> d.nodeId.value in NodeIds(f.nodes)
    ensures forall i, j :: 0 <= i < j < |r| && r[i].nodeId.Some? ==> r[j].nodeId.Some?
    ensures StartCount(f.nodes) != 1 && EndCount(f.nodes) == 0 ==>
              |r| >= 2 && r[0].severity == Error && r[1].nodeId.None? && r[1].severity == Warning
  {
    var global := FlowDiagnostics(f.nodes);
    var local := PerNodeDiagnostics(f.connections, f.nodes);
    FlowDiagnosticsFilters(f.nodes);
    FiltersOfConcat(global, local);
    NodeLessFirst(global, local);
    global + local
  }

  /** Filtering flow-level followed by per-node diagnostics sees only the flow-level ones. */
  lemma FiltersOfConcat(global: seq<Diagnostic>, local: seq<Diagnostic>)
    requires forall d :: d in local ==> d.severity == Warning && d.nodeId.Some?
    ensures Filter(global + local, IsError) == Filter(global, IsError)
    ensures Filter(global + local, IsFlowWarning) == Filter(global, IsFlowWarning)
  {
    FilterConcat(global, local, IsError);
    FilterConcat(global, local, IsFlowWarning);
    FilterDropsAll(local, IsError);
    FilterDropsAll(local, IsFlowWarning);
  }

  /** Node-less diagnostics placed before node ones stay before them. */
  lemma NodeLessFirst(global: seq<Diagnostic>, local: seq<Diagnostic>)
    requires forall d :: d in global ==> d.nodeId.None?
    requires forall d :: d in local ==> d.nodeId.Some?
    ensures forall i, j :: 0 <= i < j < |global + local| && (global + local)[i].nodeId.Some? ==>
                           (global + local)[j].nodeId.Some?
  {
    var r := global + local;
    forall i, j | 0 <= i < j < |r| && r[i].nodeId.Some?
      ensures r[j].nodeId.Some?
    {
      assert r[j] == local[j - |global|];
      assert r[j] in local;
    }
  }

  /** The flow-level diagnostics split into their error part and warning part. */
  lemma FlowDiagnosticsFilters(nodes: seq<FlowNode>)
    ensures |FlowDiagnostics(nodes)| <= 2
    ensures forall d :: d in FlowDiagnostics(nodes) ==> d.nodeId.None?
    ensures Filter(FlowDiagnostics(nodes), IsError) ==
              if StartCount(nodes) == 0 then [Diagnostic(None, NoStartMessage, Error)]
              else if StartCount(nodes) > 1 then [Diagnostic(None, ManyStartsMessage, Error)]
              else []
    ensures Filter(FlowDiagnostics(nodes), IsFlowWarning) ==
              if EndCount(nodes) == 0 then [Diagnostic(None, NoEndMessage, Warning)] else []
  {
    var starts, ends := StartDiagnostics(nodes), EndDiagnostics(nodes);
    assert FlowDiagnostics(nodes) == starts + ends;
    ErrorsOfFlowRules(starts, ends);
    FlowWarningsOfFlowRules(starts, ends);
  }

  lemma ErrorsOfFlowRules(starts: seq<Diagnostic>, ends: seq<Diagnostic>)
    requires forall d :: d in starts ==> IsError(d)
    requires forall d :: d in ends ==> !IsError(d)
    ensures Filter(starts + ends, IsError) == starts
  {
    FilterConcat(starts, ends, IsError);
    FilterKeepsAll(starts, IsError);
    FilterDropsAll(ends, IsError);
  }

  lemma FlowWarningsOfFlowRules(starts: seq<Diagnostic>, ends: seq<Diagnostic>)
    requires forall d :: d in starts ==> !IsFlowWarning(d)
    requires forall d :: d in ends ==> IsFlowWarning(d)
    ensures Filter(starts + ends, IsFlowWarning) == ends
  {
    FilterConcat(starts, ends, IsFlowWarning);
    FilterDropsAll(starts, IsFlowWarning);
    FilterKeepsAll(ends, IsFlowWarning);
  }

  /** Per-node diagnostics follow node order: those of `a` precede those of `b`. */
  lemma {:induction false} PerNodeDiagnosticsConcat(connections: seq<FlowConnection>, a: seq<FlowNode>, b: seq<FlowNode>)
    ensures PerNodeDiagnostics(connections, a + b) ==
            PerNodeDiagnostics(connections, a) + PerNodeDiagnostics(connections, b)
  {
    if |a| == 0 {
      assert a + b == b;
    } else {
      assert (a + b)[0] == a[0];
      assert (a + b)[1..] == a[1..] + b;
      PerNodeDiagnosticsConcat(connections, a[1..], b);
    }
  }

  /** A per-node diagnostic belongs to exactly the nodes it was produced for. */
  lemma {:induction false} PerNodeMember(connections: seq<FlowConnection>, nodes: seq<FlowNode>, d: Diagnostic)
    ensures d in PerNodeDiagnostics(connections, nodes) <==>
            exists n :: n in nodes && d in NodeDiagnostics(connections, n)
  {
    if |nodes| > 0 {
      PerNodeMember(connections, nodes[1..], d);
      assert forall n :: n in nodes <==> n == nodes[0] || n in nodes[1..];
    }
  }

  lemma UnreachableMessageInjective(a: string, b: string)
    ensures UnreachableMessage(a) == UnreachableMessage(b) ==> a == b
  {
    if UnreachableMessage(a) == UnreachableMessage(b) {
      assert a == UnreachableMessage(a)[6..6 + |a|];
      assert b == UnreachableMessage(b)[6..6 + |b|];
    }
  }

  lemma NoOutputMessageInjective(a: string, b: string)
    ensures NoOutputMessage(a) == NoOutputMessage(b) ==> a == b
  {
    if NoOutputMessage(a) == NoOutputMessage(b) {
      assert a == NoOutputMessage(a)[6..6 + |a|];
      assert b == NoOutputMessage(b)[6..6 + |b|];
    }
  }

  /** The two per-node messages never coincide, whatever the labels. */
  lemma MessagesDiffer(a: string, b: string)
    ensures UnreachableMessage(a) != NoOutputMessage(b)
  {
    var m1 := UnreachableMessage(a);
    var m2 := NoOutputMessage(b);
    assert m1[|m1| - 2] == 'e';
    assert m2[|m2| - 2] == 't';
  }

  /** The "not reachable" warning for (`id`, `label`) appears exactly when a node
      with that id and label is neither START nor the target of any connection. */
  lemma UnreachableWarningIff(f: Flow, id: string, caption: string)
    ensures Diagnostic(Some(id), UnreachableMessage(caption), Warning) in Validate(f) <==>
            exists n :: n in f.nodes && n.id == id && n.data.caption == caption && Unreachable(f.connections, n)
  {
    var d := Diagnostic(Some(id), UnreachableMessage(caption), Warning);
    PerNodeMember(f.connections, f.nodes, d);
    FlowDiagnosticsFilters(f.nodes);
    forall n | n in f.nodes
      ensures d in NodeDiagnostics(f.connections, n) <==>
              n.id == id && n.data.caption == caption && Unreachable(f.connections, n)
    {
      UnreachableMessageInjective(n.data.caption, caption);
      MessagesDiffer(caption, n.data.caption);
    }
  }

  /** The "has no output" warning for (`id`, `label`) appears exactly when a node
      with that id and label is neither END nor the source of any connection. */
  lemma NoOutputWarningIff(f: Flow, id: string, caption: string)
    ensures Diagnostic(Some(id), NoOutputMessage(caption), Warning) in Validate(f) <==>
            exists n :: n in f.nodes && n.id == id && n.data.caption == caption && DeadEnd(f.connections, n)
  {
    var d := Diagnostic(Some(id), NoOutputMessage(caption), Warning);
    PerNodeMember(f.connections, f.nodes, d);
    FlowDiagnosticsFilters(f.nodes);
    forall n | n in f.nodes
      ensures d in NodeDiagnostics(f.connections, n) <==>
              n.id == id && n.data.caption == caption && DeadEnd(f.connections, n)
    {
      NoOutputMessageInjective(n.data.caption, caption);
      MessagesDiffer(n.data.caption, caption);
    }
  }

  /** A flow is free of diagnostics exactly when it has one START, at least one
      END, and every node has the input and output its kind calls for. */
  lemma ValidateEmptyIff(f: Flow)
    ensures Validate(f) == [] <==>
            && StartCount(f.nodes) == 1
            && EndCount(f.nodes) >= 1
            && forall n :: n in f.nodes ==> !Unreachable(f.connections, n) && !DeadEnd(f.connections, n)
  {
    FlowDiagnosticsFilters(f.nodes);
    var local := PerNodeDiagnostics(f.connections, f.nodes);
    assert Validate(f) == FlowDiagnostics(f.nodes) + local;
    if Validate(f) == [] {
      forall n | n in f.nodes
        ensures !Unreachable(f.connections, n) && !DeadEnd(f.connections, n)
      {
        var ds := NodeDiagnostics(f.connections, n);
        if ds != [] {
          PerNodeMember(f.connections, f.nodes, ds[0]);
        }
      }
    } else if StartCount(f.nodes) == 1 && EndCount(f.nodes) >= 1 {
      assert local != [];
      PerNodeMember(f.connections, f.nodes, local[0]);
      var n :| n in f.nodes && local[0] in NodeDiagnostics(f.connections, n);
      assert Unreachable(f.connections, n) || DeadEnd(f.connections, n);
    }
  }

  /** Two node lists that agree everywhere except, perhaps, in positions. */
  predicate SameButPositions(a: seq<FlowNode>, b: seq<FlowNode>) {
    && |a| == |b|
    && forall i :: 0 <= i < |a| ==> a[i].id == b[i].id && a[i].kind == b[i].kind && a[i].data == b[i].data
  }

  lemma {:induction false} KindsAndRulesIgnorePositions(connections: seq<FlowConnection>, a: seq<FlowNode>, b: seq<FlowNode>)
    requires SameButPositions(a, b)
    ensures StartCount(a) == StartCount(b) && EndCount(a) == EndCount(b)
    ensures PerNodeDiagnostics(connections, a) == PerNodeDiagnostics(connections, b)
  {
    if |a| > 0 {
      KindsAndRulesIgnorePositions(connections, a[1..], b[1..]);
    }
  }

  /** Positions are cosmetic: flows that differ only in where their nodes sit
      get the same diagnostics. */
  lemma ValidateIgnoresPositions(f: Flow, g: Flow)
    requires f.connections == g.connections && SameButPositions(f.nodes, g.nodes)
    ensures Validate(f) == Validate(g)
  {
    KindsAndRulesIgnorePositions(f.connections, f.nodes, g.nodes);
    assert FlowDiagnostics(f.nodes) == FlowDiagnostics(g.nodes);
    ValidateSplits(f);
    ValidateSplits(g);
  }

  /** `validateFlow` is the flow-level rules followed by the per-node ones. */
  lemma ValidateSplits(f: Flow)
    ensures Validate(f) == FlowDiagnostics(f.nodes) + PerNodeDiagnostics(f.connections, f.nodes)
  {
  }
}
